=== FILE: README.md ===
# LMA-Sentinel: a Dafny model of the audit pipeline core

LMA-Sentinel audits sustainability-linked loan documents in four stages:

1. Masking removes personal data from an uploaded PDF.
2. Extraction asks a language model for the GPS position, the target NDVI and the margin, and finds an evidence page.
3. Verification checks the site against Sentinel-2 imagery through Google Earth Engine.
4. Settlement turns the outcome into a compliance status, a margin adjustment and a sealed report.

This project models the logic of that pipeline that does not depend on the outside services. Each service is a parameter: a hash, the PII shield, the PDF library, the language model, Earth Engine, Python's number rendering and Python's float parsing. Every number is a `real`.

- `common.dfy` (module `Common`) models the Python string behaviour the pipeline relies on:
  - `str.strip()`, `str.split()` and `str.split(',')`;
  - substring search and ASCII lower-casing;
  - `str()` and `float()` of a JSON scalar;
  - the decimal rendering of an integer timestamp.
- `trust_ledger.dfy` (module `TrustLedger`) models the settlement:
  - the four-row decision table, first match wins;
  - the signed adjustment, the new margin, the impact text and the revenue figure;
  - the seal input `doc_id|status|new_margin|timestamp` and the report path.
- `verifier.dfy` (module `PlanetaryVerifier`) models `verify_zonal_truth`:
  - the `NOT_PROVIDED` guard;
  - coordinate parsing, with exceptions becoming `Verification Failure: ...`;
  - the empty-collection error;
  - the strict `is_breach` comparison and the verdict strings.

  Earth Engine answers a `Query` with an image count and the composite's statistics, or with an exception.
- `extraction.dfy` (module `ExtractionEngine`) models `LegalBrain.extract_text_blocks` as a method with the source's page loop and nested block loop. It is proved equal to the specification function `BlocksOf`, and the filter's properties are proved about that function. `Run` hands the blocks to the model oracle.
- `bridge.dfy` (module `Bridge`) models the driver. The class `AuditVault` holds the in-memory vault `map<string, Record>`. Each of its stage methods is proved equal to a pure transition:
  - `LocalMasking` to `Mask`;
  - `LocalExtraction` to `Extract`;
  - `LocalVerification` to `VerifyStage`.

  The lemmas about those transitions state what each stage writes and what it leaves alone. The module also covers:
  - the highlight-target list;
  - the target-by-page search loop `FindPages` and the choice of the evidence page;
  - the comma-or-whitespace GPS split;
  - the conversion of exceptions into `{"status": "ERROR", ...}` replies.

A Python exception that a stage does not catch becomes a reply variant of its own. `MaskingRaised`, `BrainRaised` and `EmptyDocument` each leave the vault exactly as the code would. Exceptions that `local_verification` converts become `Fault` kinds.

A GPS value of `NOT_PROVIDED` on its own has no comma and is one whitespace token, so `parts[1]` raises and the stage answers ERROR. The verifier's DECLASSIFIED guard is reached only when one of two coordinates is exactly `NOT_PROVIDED`. `Bridge.SingleTokenGpsRefused` states this.

## Model

| member | source | states |
|---|---|---|
| Common.Strip | Extraction_Engine/extraction_bounding_box.py:32 | the stripped text is empty or starts and ends with a non-whitespace character, and is no longer than the input |
| Common.StripBlank | Extraction_Engine/extraction_bounding_box.py:32 | `text.strip()` is empty exactly when every character is whitespace |
| Common.StripIdempotent | Extraction_Engine/extraction_bounding_box.py:35 | stripping stripped text changes nothing |
| Common.StripPadded | Extraction_Engine/extraction_bounding_box.py:35 | whitespace around a text does not change its strip |
| Common.Words | bridge.py:110 | `split()` yields non-empty tokens without whitespace |
| Common.WordsConcatSpace | bridge.py:68 | a whitespace character separates tokens: the tokens of `a + c + b` are those of `a` followed by those of `b` |
| Common.WordsSkipSpaces | bridge.py:110 | leading whitespace yields no tokens |
| Common.SplitOn | bridge.py:108 | `split(',')` yields at least one field, at least two when the separator occurs, and no field contains it |
| Common.SplitJoin | bridge.py:108 | joining the fields of `split(c)` with `c` gives back the text |
| Common.JoinSplit | trust_ledger/trust_ledger.py:71 | splitting a `c`-joined list of `c`-free fields gives back the fields |
| Common.SplitOnFirstField | bridge.py:108 | the first field is the text before the first separator and the rest is the split of the remainder |
| Common.Lower | Extraction_Engine/extraction_bounding_box.py:27 | `lower()` keeps the length and lower-cases each ASCII letter, leaving other characters alone |
| Common.ReplaceChar | bridge.py:68 | `replace(',', ' ')` keeps the length, turns each comma into a space and leaves other characters alone |
| Common.PyStr | bridge.py:64-67 | definition: `str()` of a JSON scalar (text as is, a number through the renderer, `null` as `None`); characterised by `NullGpsSkipped` and `GpsStagesAgree` |
| Common.PyFloat | bridge.py:113 | definition: `float()` of a JSON scalar (text through the parser, a number as is, `null` rejected); characterised by the NDVI clauses of `Prepare` |
| TrustLedger.NewLedger | trust_ledger/trust_ledger.py:8-10 | the base margin is the argument, 150 bps by default, and the reports directory is `reports` |
| TrustLedger.Decide | trust_ledger/trust_ledger.py:15-40 | each status holds exactly when its row's condition holds and every earlier row's fails: DECLASSIFIED iff actual is missing, Double BREACH iff ratio > 0.10, BREACH iff ratio <= 0.10 and actual < target, COMPLIANT otherwise |
| TrustLedger.StatusText | trust_ledger/trust_ledger.py:16-37 | definition: the four status strings; characterised by `StatusTextDistinct` |
| TrustLedger.Adjustment | trust_ledger/trust_ledger.py:15-40 | the adjustment is twice the ratchet for a Double BREACH and the ratchet otherwise, in size; with a positive ratchet it is negative exactly for COMPLIANT |
| TrustLedger.ImpactText | trust_ledger/trust_ledger.py:43 | the impact text ends in ` bps` and starts with `+` for a positive adjustment |
| TrustLedger.RevenueImpact | trust_ledger/trust_ledger.py:48-49 | the revenue change is never negative and is 10,000 times the absolute adjustment |
| TrustLedger.CalculateFinalVerdict | trust_ledger/trust_ledger.py:13-67 | status and adjustment for every row; `UNVERIFIED` or the rendered actual value; new margin = base + adjustment; the margin adjustment is the impact text of the adjustment and the final margin is the rendered new margin followed by ` bps`; the breach percentage is the ratio x 100; revenue = 10,000 x abs(adjustment); the seal is the hash of `doc_id|status|new_margin|timestamp`; the report path and loan reference |
| TrustLedger.DoubleBreachDominates | trust_ledger/trust_ledger.py:22-26 | a ratio above 0.10 is a Double BREACH even when the actual value meets the target |
| TrustLedger.ThresholdIsStrict | trust_ledger/trust_ledger.py:22 | a ratio of exactly 0.10 never escalates and falls to BREACH or COMPLIANT by the target comparison |
| TrustLedger.ImpactSign | trust_ledger/trust_ledger.py:43 | the impact text starts with `+` exactly when the adjustment is positive |
| TrustLedger.RevenueSymmetric | trust_ledger/trust_ledger.py:48-49 | a penalty and a reward of the same size have the same revenue impact, and the impact grows with the size of the adjustment |
| TrustLedger.SealFields | trust_ledger/trust_ledger.py:71 | the seal input splits back on `|` into document id, status, margin and timestamp when none contains `|` |
| TrustLedger.SealInput | trust_ledger/trust_ledger.py:71 | the seal input is as long as the four fields plus three separators and starts with the document id followed by `|` |
| TrustLedger.ReportPath | trust_ledger/trust_ledger.py:151-152 | the report path is `<reports_dir>/audit_report_` followed by the document id and `.pdf`, and nothing else |
| TrustLedger.GeneratePdfReport | trust_ledger/trust_ledger.py:69-155 | the report is written to `<reports_dir>/audit_report_<doc_id>.pdf` and the seal is the hash of `doc_id|status|new_margin|timestamp` |
| TrustLedger.SealInputInjective | trust_ledger/trust_ledger.py:71-72 | equal seal inputs come from equal fields, so the seal binds each field |
| TrustLedger.StatusTextDistinct | trust_ledger/trust_ledger.py:15-40 | the four status texts are distinct and free of the seal separator |
| TrustLedger.DefaultReportPath | trust_ledger/trust_ledger.py:151-152 | the default ledger writes `reports/audit_report_<doc_id>.pdf` on a 150 bps base |
| TrustLedger.SettlementExamples | trust_ledger/trust_ledger.py:13-67 | on a 0.75 target and 5 bps ratchet: missing actual gives 155, ratio 0.15 gives 160, actual 0.70 gives 155, actual 0.82 gives 145 with 50,000 revenue impact |
| PlanetaryVerifier.AuditQuery | Planetary_verifier/verifier.py:26-43 | the query is about the parsed point and the verifier's collection |
| PlanetaryVerifier.AuditQueryConstants | Planetary_verifier/verifier.py:27-43 | 500 m buffer, 2025-09-01 to 2026-01-01 window, cloud below 20%, threshold 0.2, 10 m scale |
| PlanetaryVerifier.ParseCoordinate | Planetary_verifier/verifier.py:21-22 | a coordinate that is already stripped, in particular one without whitespace, is parsed exactly as written |
| PlanetaryVerifier.ParseCoordinateIgnoresPadding | Planetary_verifier/verifier.py:21-22 | whitespace before or after a coordinate does not change how it is parsed |
| PlanetaryVerifier.VerifyZonalTruth | Planetary_verifier/verifier.py:12-110 | DECLASSIFIED iff a coordinate is `NOT_PROVIDED`; an unparsable coordinate or any backend exception is a failure whose message starts with `Verification Failure: `; the no-imagery error iff the collection is empty; SUCCESS whenever both coordinates parse, the collection is non-empty and the composite is computed, and only then, echoing the target, the composite's score, its ratio x 100 and its two thumbnail URLs; `is_breach` iff actual < target; the breach verdict iff `is_breach`, the compliant verdict otherwise |
| PlanetaryVerifier.GuardNeedsNoBackend | Planetary_verifier/verifier.py:13-17 | with the sentinel the result is DECLASSIFIED and does not depend on the parser or the backend |
| PlanetaryVerifier.StatusClassifies | Planetary_verifier/verifier.py:14-17 | the status field is SUCCESS, ERROR or DECLASSIFIED exactly for the matching result shapes |
| ExtractionEngine.ExtractTextBlocks | Extraction_Engine/extraction_bounding_box.py:21-38 | the page loop, with the block loop `AppendPageBlocks` for each keyword page, produces exactly `BlocksOf(pages)` |
| ExtractionEngine.AppendPageBlocks | Extraction_Engine/extraction_bounding_box.py:30-37 | the block loop of one page appends exactly the page's converted non-blank blocks |
| ExtractionEngine.Qualifies | Extraction_Engine/extraction_bounding_box.py:27-29 | definition: the keyword test on the lower-cased page text (a qualifying page has at least three characters); characterised by `QualifiesIgnoresCase` and `BlocksOfMembership` |
| ExtractionEngine.QualifiesIgnoresCase | Extraction_Engine/extraction_bounding_box.py:27-29 | lower-casing the page text first does not change the filter, and `Mean NDVI` qualifies |
| ExtractionEngine.Convert | Extraction_Engine/extraction_bounding_box.py:31-36 | the page number is the 1-based index, the box is `[y0, x0, y1, x1]`, and the text is non-empty exactly for a kept block |
| ExtractionEngine.ConvertStripped | Extraction_Engine/extraction_bounding_box.py:35 | the text of a converted block is already stripped |
| ExtractionEngine.PageBlocks | Extraction_Engine/extraction_bounding_box.py:30-37 | a page contributes at most one block per raw block |
| ExtractionEngine.Run | Extraction_Engine/extraction_bounding_box.py:72-74 | the model is asked about exactly the filtered block list |
| ExtractionEngine.BlocksOf | Extraction_Engine/extraction_bounding_box.py:23-37 | definition: the reference block list, page after page; characterised by `BlocksOfMembership`, `BlocksOfOrdered` and `BlocksOfShape`, and equal to the loop by `ExtractTextBlocks` |
| ExtractionEngine.PageBlocksSound | Extraction_Engine/extraction_bounding_box.py:30-37 | every block a page contributes is one of its non-blank blocks, converted |
| ExtractionEngine.PageBlocksComplete | Extraction_Engine/extraction_bounding_box.py:30-37 | every non-blank block of a page is contributed, converted |
| ExtractionEngine.PageBlocksMembership | Extraction_Engine/extraction_bounding_box.py:30-37 | a page contributes exactly its non-blank blocks |
| ExtractionEngine.BlocksOfSound | Extraction_Engine/extraction_bounding_box.py:25-37 | every output block comes from a non-blank block of a page whose lower-cased text holds a keyword |
| ExtractionEngine.BlocksOfComplete | Extraction_Engine/extraction_bounding_box.py:25-37 | every non-blank block of a keyword page is in the output, including blocks without a keyword |
| ExtractionEngine.BlocksOfMembership | Extraction_Engine/extraction_bounding_box.py:25-37 | a block is in the output exactly when it comes from a non-blank block of a keyword page |
| ExtractionEngine.BlocksOfShape | Extraction_Engine/extraction_bounding_box.py:25-36 | every output block is well formed: a page number in 1..page count of a keyword page, non-blank stripped text and a four-number box |
| ExtractionEngine.BlockShape | Extraction_Engine/extraction_bounding_box.py:25-36 | any one block in the output is well formed |
| ExtractionEngine.BlocksOfOrdered | Extraction_Engine/extraction_bounding_box.py:25-33 | page numbers in the output never decrease |
| ExtractionEngine.PageBlocksInOrder | Extraction_Engine/extraction_bounding_box.py:30-33 | within a page the output follows the input order of the blocks |
| ExtractionEngine.NonQualifyingPageSkipped | Extraction_Engine/extraction_bounding_box.py:27-29 | a page without a keyword contributes nothing, whatever its blocks |
| Bridge.Preview | bridge.py:45 | the preview is the first min(1200, length) characters of the masked text |
| Bridge.Mask | bridge.py:26-47 | masking fails exactly when the PII shield cannot read the PDF, and then writes nothing; otherwise the keys are the old keys plus the new id and every other record is unchanged |
| Bridge.MaskedPath | bridge.py:35 | the masked PDF path is `static/masked_` followed by the document id and `.pdf`, and nothing else |
| Bridge.MaskingReplacesRecord | bridge.py:26-47 | masking stores exactly `{safe_text, path = static/masked_<id>.pdf}` under the md5 id, dropping earlier extraction and verification results, keeps every other key, and returns the id, the preview and the status `🔒 PII Secured`; an unreadable PDF changes nothing |
| Bridge.SameBytesSameId | bridge.py:28 | the document id depends only on the bytes, and re-submitting them leaves the vault as one submission does |
| Bridge.LongTokens | bridge.py:68 | the kept tokens are no more than the input tokens, and tokens free of whitespace and commas stay free of them and are longer than two characters |
| Bridge.GpsTokens | bridge.py:67-68 | every GPS token is longer than two characters and holds neither whitespace nor a comma |
| Bridge.LongTokensMembership | bridge.py:68 | the filter keeps exactly the whitespace-free words longer than two characters (as a set; order and repeats are stated by `LongTokensAppend` and `LongTokensSingle`) |
| Bridge.LongTokensAppend | bridge.py:68 | the comprehension keeps input order and repeats: filtering `a + b` gives the filtered `a` followed by the filtered `b` |
| Bridge.LongTokensSingle | bridge.py:68 | a single whitespace-free word is kept, unchanged, exactly when it is longer than two characters |
| Bridge.GpsTokensMembership | bridge.py:67-68 | the GPS tokens are exactly the tokens longer than two characters of the text with commas turned into spaces (as a set; their order is stated by `GpsTokensComma`) |
| Bridge.GpsTokensComma | bridge.py:67-68 | the GPS tokens of `a,b` are the tokens of `a` followed by those of `b`, so tokens are searched in text order |
| Bridge.HighlightTargets | bridge.py:63-69 | the targets are the NDVI text, the margin text, then the GPS tokens, each of which is longer than two characters without whitespace |
| Bridge.NullGpsSkipped | bridge.py:67-72 | a null GPS value yields the single target `None`, which the search skips |
| Bridge.SkipTarget | bridge.py:72 | definition: the empty target and `None` are skipped; characterised by `TargetPagesHead` and `NullGpsSkipped` |
| Bridge.GpsTokensOfPair | bridge.py:67-68 | the GPS tokens of `lat, lon` are exactly `lat` and `lon` |
| Bridge.PagesWithSpec | bridge.py:73-77 | one target's pages are exactly the pages holding it, ascending |
| Bridge.PagesWith | bridge.py:73-77 | one target yields at most one page per page of the document, each below the page count |
| Bridge.AppendTargetPages | bridge.py:73-77 | the page loop of one target appends exactly the pages holding it, in order |
| Bridge.TargetPages | bridge.py:71-77 | a skipped target adds nothing and any target adds at most one entry per page; characterised by `TargetPagesHead` |
| Bridge.FoundPages | bridge.py:71-77 | every found page is a page of the document |
| Bridge.FindPages | bridge.py:71-77 | the target loop, with the page loop `AppendTargetPages` for each searched target, produces exactly `FoundPages`: pages per target in target order, skipped targets adding nothing |
| Bridge.TargetPagesHead | bridge.py:71-77 | a target adds pages exactly when it is searched and found, and its first page is its lowest |
| Bridge.FoundPagesEmpty | bridge.py:71-77 | nothing is found exactly when no searched target is found on any page |
| Bridge.FoundPagesHead | bridge.py:71-77 | the first found page is the lowest page of the earliest-listed target that is found |
| Bridge.ValidPagesVacuous | bridge.py:84 | the `< len(doc)` filter keeps every found page |
| Bridge.ValidPages | bridge.py:84 | the valid pages are found pages below the page count, no more of them than were found |
| Bridge.DisplayPage | bridge.py:84-85 | the evidence index is 0 or a found page, and is a page of any non-empty document |
| Bridge.DisplayPageChoice | bridge.py:84-85 | the evidence page is a page of any non-empty document; it is 0 when nothing is found, else the lowest page of the earliest-listed target found |
| Bridge.EarliestTargetNotLowestPage | bridge.py:71-85 | with the NDVI value only on page 2 and the margin only on page 0, the evidence page is 2, not the lowest matched page |
| Bridge.ExtractionEffect | bridge.py:49-98 | an unknown id answers `DocNotFound` with the reason "Doc ID not found" and writes nothing; a model failure writes nothing; once the model answers, the record gains `extracted_data` and nothing else changes, and the reply is the evidence reply of `ShowEvidence`, 1-based within the document and failing only for a document without pages |
| Bridge.Extract | bridge.py:49-98 | only an unknown id is "not found"; extraction never adds or removes a document and touches no other record |
| Bridge.ShowEvidence | bridge.py:84-97 | rendering fails exactly for a document without pages; otherwise the reply carries the data, the evidence path and page number `display_page_idx + 1`, where the index is the evidence page chosen from the target search |
| Bridge.ChooseDisplayPage | bridge.py:84-85 | the computed index is exactly `DisplayPage` of the found pages, hence a page of any non-empty document |
| Bridge.LocateEvidence | bridge.py:59-97 | the highlight search and the page choice, run as the source's loops, produce exactly the `ShowEvidence` reply |
| Bridge.EvidencePageChoice | bridge.py:71-97 | the page shown is page 1 when no searched target is found anywhere, otherwise one more than the lowest page holding the earliest-listed target that is found |
| Bridge.EvidencePath | bridge.py:87-89 | the evidence image path is `static/evidence_<doc_id>_` followed by the decimal timestamp and `.png` |
| Bridge.Prepare | bridge.py:102-113 | the verifier is called exactly when every check passes: a stored record with extracted data, a text GPS value that splits into two coordinates and an NDVI value `float()` accepts; each refusal in the order the code raises it (no record, no extracted data, GPS not text, fewer than two coordinates, NDVI rejected with its message); when ready, the coordinates are those of `SplitGps` and the target is `float()` of the NDVI value |
| Bridge.VerifyStage | bridge.py:100-119 | the verifier is consulted exactly when preparation succeeds; no document is added or removed and no other record is touched |
| Bridge.VerificationEffect | bridge.py:100-119 | an error is answered exactly when preparation fails and writes nothing; a missing record or missing extraction is reported as such; when preparation succeeds the reply is the verifier's result on the prepared coordinates and target, stored under `sat_res` and returned unchanged |
| Bridge.SplitGpsCommaFields | bridge.py:107-108 | with a comma, lat and lon are the stripped first and second fields and further fields are ignored |
| Bridge.SplitGps | bridge.py:107-111 | only a comma-free value with fewer than two tokens has no coordinates; the coordinates never carry surrounding whitespace, and without a comma they are non-empty and hold no whitespace |
| Bridge.SplitGpsSpaced | bridge.py:109-111 | without a comma, lat and lon are the first two whitespace tokens, whatever whitespace precedes, separates or follows them |
| Bridge.SpacedPairWords | bridge.py:110-111 | the first two whitespace tokens of a blank-padded pair are the pair |
| Bridge.SingleTokenGpsRefused | bridge.py:109-111 | a single token such as `NOT_PROVIDED` has no second coordinate, and verification reports an error |
| Bridge.SplitGpsOfPair | bridge.py:107-108 | the coordinates split from `lat, lon` are exactly `lat` and `lon` |
| Bridge.GpsStagesAgree | bridge.py:67-111 | for `lat, lon` the extraction stage highlights the same two strings the verification stage sends |
| Bridge.AuditVault.constructor | bridge.py:17-24 | the vault starts empty and the ledger has the 150 bps base |
| Bridge.AuditVault.LocalMasking | bridge.py:26-47 | the new vault and reply are those of `Mask` on the old vault |
| Bridge.AuditVault.LocalExtraction | bridge.py:49-98 | the new vault and reply are those of `Extract` on the old vault |
| Bridge.AuditVault.LocalVerification | bridge.py:100-119 | the new vault and reply are those of `VerifyStage` on the old vault |
| Bridge.AuditVault.LocalAudit | bridge.py:121-126 | the settlement is the ledger's verdict for the arguments, and the vault is not read or written |

## Left out

- PII masking (`Secure_shield/pii_masking.py`) is the regex engine's behaviour plus PDF I/O. It is the oracle `processPdf`. Writing the masked PDF is I/O; the model reads the stored PDF back through `openPdf`.
- PDF access is an oracle: the pages, `search_for`, rectangle drawing and the evidence pixmap. Only the pages and whether a target is found on a page are modelled.
- The Gemini client, the prompt and the JSON parsing of the reply are the oracle `gemini`. Its reply always has the three fields with a string, number or null value. A missing key or another JSON type is not modelled.
- Every Earth Engine call is the oracle `earthEngine`: geometry, image collection, median, region reductions and thumbnail URLs. The two reads of the collection size are taken to return the same count, so the second zero check is unreachable in the model as in the code.
- md5 and sha256 are oracles. The timestamps of the evidence image and of the report are parameters.
- `print` output, the FPDF report layout and the creation of the `static` and `reports` directories are not modelled.
- Python's rendering of floats is the oracle `renderNumber`, so nothing is proved about digits. Rounding is not modelled either: `round(...)` and the `:,.2f` format.
- PlanetaryVerifier.VerifyZonalTruth: `actual_ndvi` is the unrounded score, `breach_area_percentage` is the unrounded ratio x 100 rather than its two-decimal text, and the `analysis` sentence is not modelled. The rounding gap between the comparison and the reported value is therefore not captured.
- TrustLedger.CalculateFinalVerdict: the `reason` text is not modelled. `breach_ratio` and `revenue_impact` are kept as numbers rather than their formatted text. `status` is kept as the `Status` value, whose text is `StatusText`.
- Exception messages are not modelled. Python's text for the exceptions in `local_verification` is represented by the `Fault` kind, except for the float parser's message on the NDVI value.
- Lower-casing is ASCII only. Non-ASCII case mapping in the keyword filter is not modelled.
- The vault is a global dictionary with no synchronisation. The model is sequential, and concurrency is not modelled.
- `app.py` (a FastAPI transport that duplicates the bridge), `main.py` (the Streamlit UI) and `data_generation.py` (fixture generation) are not part of this model.

=== FILE: bridge.dfy ===
/** The pipeline driver: the in-memory audit vault, keyed by document id,
    and the four stage operations that read and update it. Every outside
    service (PDF library, PII shield, language model, Earth Engine, hashes,
    number rendering and parsing) is an oracle in `Services`. */
module Bridge {
  import opened Common
  import opened ExtractionEngine
  import opened PlanetaryVerifier
  import TrustLedger

  /** One vault entry: the masked text and PDF path written by masking, the
      model's reply added by extraction, the verifier's result added by
      verification. */
  datatype Record = Record(
    safeText: string,
    path: string,
    extractedData: Option<ExtractedData>,
    satRes: Option<VerifyResult>)

  type Vault = map<string, Record>

  /** The outside world as seen by the pipeline. */
  datatype Services = Services(
    // `hashlib.md5(b).hexdigest()`
    md5Hex: seq<bv8> -> string,
    // `shield.process_pdf_bytes(b, name)["safe_content"]`, None when the PDF cannot be read
    processPdf: (seq<bv8>, string) -> Option<string>,
    // the pages of the PDF stored at a path, as PyMuPDF reads them
    openPdf: string -> seq<Page>,
    // `page.search_for(target)` is non-empty, for the PDF at a path
    searchFor: string -> ((nat, string) -> bool),
    // the language model's parsed JSON reply, None when the call or `json.loads` raises
    gemini: seq<Block> -> Option<ExtractedData>,
    // Python's rendering of a number, as in `str(x)`
    renderNumber: real -> string,
    // Python's `float(s)` on a string
    parseFloat: string -> Parsed,
    earthEngine: Query -> EeResponse,
    // `hashlib.sha256(s.encode()).hexdigest()`
    sha256Hex: string -> string)

  const SecuredStatus: string := "\U{1F512} PII Secured"
  const PreviewLength: nat := 1200
  const DocNotFoundReason: string := "Doc ID not found"

  // ---------------------------------------------------------------------
  // Masking
  // ---------------------------------------------------------------------

  /** `f"static/masked_{doc_id}.pdf"`. */
  function MaskedPath(docId: string): (r: string)
    ensures |r| == |docId| + 18 && "static/masked_" <= r
    ensures r[14..|r| - 4] == docId && r[|r| - 4..] == ".pdf"
  {
    "static/masked_" + docId + ".pdf"
  }

  /** `safe_text[:1200]`: the first 1200 characters, or all of a shorter text. */
  function Preview(safeText: string): (r: string)
    ensures |r| == Min(PreviewLength, |safeText|)
    ensures r <= safeText
  {
    if |safeText| <= PreviewLength then safeText else safeText[..PreviewLength]
  }

  datatype MaskingReply =
    | Masked(docId: string, preview: string, status: string)
    | MaskingRaised

  /** `local_masking` as a transition of the vault. */
  function Mask(vault: Vault, svc: Services, fileBytes: seq<bv8>, filename: string): (r: (Vault, MaskingReply))
    // Masking fails exactly when the PII shield cannot read the PDF.
    ensures r.1.MaskingRaised? <==> svc.processPdf(fileBytes, filename).None?
    // At most the record under the reply's id is added or replaced.
    ensures r.1.MaskingRaised? ==> r.0 == vault
    ensures r.1.Masked? ==> r.0.Keys == vault.Keys + {r.1.docId}
    ensures r.1.Masked? ==> forall k :: k in vault && k != r.1.docId ==> r.0[k] == vault[k]
    // A successful masking always reports the secured status.
    ensures r.1.Masked? ==> r.1.status == SecuredStatus
  {
    var docId := svc.md5Hex(fileBytes);
    match svc.processPdf(fileBytes, filename)
    case None => (vault, MaskingRaised)
    case Some(safeText) =>
      (vault[docId := Record(safeText, MaskedPath(docId), None, None)],
       Masked(docId, Preview(safeText), SecuredStatus))
  }

  /** Masking (re)creates exactly one record, under the content hash of the
      bytes: any extraction or verification stored before is dropped, and
      every other document is untouched. An unreadable PDF changes nothing. */
  lemma MaskingReplacesRecord(vault: Vault, svc: Services, fileBytes: seq<bv8>, filename: string)
    ensures var (v, reply) := Mask(vault, svc, fileBytes, filename);
      match svc.processPdf(fileBytes, filename)
      case None => v == vault && reply == MaskingRaised
      case Some(safeText) =>
        && reply.Masked? && reply.docId == svc.md5Hex(fileBytes)
        && reply.docId in v && v[reply.docId] == Record(safeText, "static/masked_" + reply.docId + ".pdf", None, None)
        && v[reply.docId].extractedData.None? && v[reply.docId].satRes.None?
        && reply.preview == safeText[..Min(1200, |safeText|)]
        && reply.status == SecuredStatus
        && v.Keys == vault.Keys + {reply.docId}
        && forall k :: k in vault && k != reply.docId ==> v[k] == vault[k]
  {
  }

  /** The document id depends on the bytes only: the same upload under any
      file name, into any vault, gets the same id. Re-submitting it leaves the
      vault as a single submission does. */
  lemma SameBytesSameId(v1: Vault, v2: Vault, svc: Services, fileBytes: seq<bv8>, name1: string, name2: string)
    requires svc.processPdf(fileBytes, name1).Some? && svc.processPdf(fileBytes, name2).Some?
    ensures Mask(v1, svc, fileBytes, name1).1.docId == Mask(v2, svc, fileBytes, name2).1.docId
    ensures var once := Mask(v1, svc, fileBytes, name1).0;
      Mask(once, svc, fileBytes, name1).0 == once
  {
  }

  // ---------------------------------------------------------------------
  // Extraction: highlight targets and the evidence page
  // ---------------------------------------------------------------------

  /** `[p.strip() for p in words if len(p) > 2]`: at most one token per word;
      for words of `split()` without commas, every token is longer than two
      characters and holds neither whitespace nor a comma. */
  function LongTokens(words: seq<string>): (r: seq<string>)
    ensures |r| <= |words|
    ensures (forall i :: 0 <= i < |words| ==> NoSpace(words[i]) && ',' !in words[i]) ==>
      forall i :: 0 <= i < |r| ==> |r[i]| > 2 && NoSpace(r[i]) && ',' !in r[i]
    decreases |words|
  {
    if words == [] then []
    else
      StripNoSpaceIf(words[0]);
      assert (forall i :: 0 <= i < |words| ==> NoSpace(words[i]) && ',' !in words[i]) ==>
        forall i :: 0 <= i < |words[1..]| ==> NoSpace(words[1..][i]) && ',' !in words[1..][i];
      (if |words[0]| > 2 then [Strip(words[0])] else []) + LongTokens(words[1..])
  }

  /** The GPS search tokens: commas become spaces, the text is split on
      whitespace and tokens of at most two characters are dropped. Every
      token is longer than two characters and holds neither whitespace nor a
      comma. */
  function GpsTokens(gpsText: string): (r: seq<string>)
    ensures forall i :: 0 <= i < |r| ==> |r[i]| > 2 && NoSpace(r[i]) && ',' !in r[i]
  {
    var replaced := ReplaceChar(gpsText, ',', ' ');
    WordsAvoid(replaced, ',');
    LongTokens(Words(replaced))
  }

  /** The filter keeps exactly the words longer than two characters. */
  lemma {:induction false} LongTokensMembership(words: seq<string>)
    requires forall i :: 0 <= i < |words| ==> NoSpace(words[i])
    ensures forall x :: x in LongTokens(words) <==> x in words && |x| > 2
    decreases |words|
  {
    if words != [] {
      StripNoSpace(words[0]);
      assert forall i :: 0 <= i < |words[1..]| ==> words[1..][i] == words[i + 1];
      LongTokensMembership(words[1..]);
      assert words == [words[0]] + words[1..];
    }
  }

  /** The GPS tokens are exactly the tokens longer than two characters of the
      text with its commas turned into spaces. */
  lemma GpsTokensMembership(gpsText: string)
    ensures forall x :: x in GpsTokens(gpsText) <==> x in Words(ReplaceChar(gpsText, ',', ' ')) && |x| > 2
  {
    LongTokensMembership(Words(ReplaceChar(gpsText, ',', ' ')));
  }

  /** One step of the filter: the first word is kept (stripped) when it is
      longer than two characters, then the rest is filtered. */
  lemma LongTokensCons(w: string, rest: seq<string>)
    ensures LongTokens([w] + rest) == (if |w| > 2 then [Strip(w)] else []) + LongTokens(rest)
  {
    assert ([w] + rest)[0] == w && ([w] + rest)[1..] == rest;
  }

  /** The inductive step of `LongTokensAppend`: a word put in front of
      both sides. */
  lemma LongTokensAppendStep(w: string, tail: seq<string>, b: seq<string>)
    requires LongTokens(tail + b) == LongTokens(tail) + LongTokens(b)
    ensures LongTokens([w] + tail + b) == LongTokens([w] + tail) + LongTokens(b)
  {
    ConcatAssoc([w], tail, b);
    LongTokensCons(w, tail + b);
    LongTokensCons(w, tail);
    ConcatAssoc(if |w| > 2 then [Strip(w)] else [], LongTokens(tail), LongTokens(b));
  }

  lemma ConcatAssoc<T>(h: seq<T>, x: seq<T>, y: seq<T>)
    ensures h + (x + y) == h + x + y
  {
  }

  /** The filter keeps the input order and repeats: filtering a
      concatenation filters each part and concatenates the results. */
  lemma {:induction false} LongTokensAppend(a: seq<string>, b: seq<string>)
    ensures LongTokens(a + b) == LongTokens(a) + LongTokens(b)
    decreases |a|
  {
    if a == [] {
      assert a + b == b;
    } else {
      assert a == [a[0]] + a[1..];
      LongTokensAppend(a[1..], b);
      LongTokensAppendStep(a[0], a[1..], b);
    }
  }

  /** A single whitespace-free word is kept, as written, exactly when it is
      longer than two characters. */
  lemma LongTokensSingle(w: string)
    requires NoSpace(w)
    ensures LongTokens([w]) == if |w| > 2 then [w] else []
  {
    StripNoSpace(w);
    assert [w][1..] == [];
  }

  /** The GPS tokens of `a,b` are the tokens of `a` followed by those of
      `b`: a token earlier in the text is searched earlier. */
  lemma GpsTokensComma(a: string, b: string)
    ensures GpsTokens(a + "," + b) == GpsTokens(a) + GpsTokens(b)
  {
    var ra, rb := ReplaceChar(a, ',', ' '), ReplaceChar(b, ',', ' ');
    assert ReplaceChar(a + "," + b, ',', ' ') == ra + [' '] + rb;
    WordsConcatSpace(ra, ' ', rb);
    LongTokensAppend(Words(ra), Words(rb));
  }

  /** The search targets: the NDVI value, the margin value, then the GPS
      tokens, each of which is longer than two characters and has no
      whitespace. */
  function HighlightTargets(data: ExtractedData, render: real -> string): (r: seq<string>)
    ensures |r| >= 2 && r[0] == PyStr(data.ndvi.value, render) && r[1] == PyStr(data.margin.value, render)
    ensures r[2..] == GpsTokens(PyStr(data.gps.value, render))
    ensures forall i :: 2 <= i < |r| ==> |r[i]| > 2 && NoSpace(r[i])
  {
    var gps := GpsTokens(PyStr(data.gps.value, render));
    var r := [PyStr(data.ndvi.value, render), PyStr(data.margin.value, render)] + gps;
    assert r[2..] == gps;
    r
  }

  /** Targets the search loop passes over. */
  predicate SkipTarget(t: string) {
    t == [] || t == "None"
  }

  lemma {:induction false} WordsAvoid(s: string, c: char)
    requires c !in s
    ensures forall i :: 0 <= i < |Words(s)| ==> c !in Words(s)[i]
    decreases |s|
  {
    if s != [] {
      if IsSpace(s[0]) {
        WordsAvoid(s[1..], c);
      } else {
        var k := TokenLen(s);
        WordsAvoid(s[k..], c);
        assert c !in s[..k] by {
          forall j | 0 <= j < k ensures s[..k][j] != c {
            assert s[..k][j] == s[j];
          }
        }
      }
    }
  }

  /** A null GPS value is rendered as `None`, which becomes the only GPS
      target and is then skipped by the search loop. */
  lemma NullGpsSkipped(data: ExtractedData, render: real -> string)
    requires data.gps.value == JNull
    ensures HighlightTargets(data, render)[2..] == ["None"]
    ensures SkipTarget(HighlightTargets(data, render)[2])
  {
    var none := "None";
    assert ReplaceChar(none, ',', ' ') == none;
    WordsSingle(none);
    StripNoSpace(none);
    assert LongTokens([none]) == [none] + LongTokens([]);
  }

  /** All pages below `n` on which `t` is found, ascending. */
  function PagesWith(t: string, n: nat, search: (nat, string) -> bool): (r: seq<nat>)
    ensures |r| <= n && forall i :: 0 <= i < |r| ==> r[i] < n
    decreases n
  {
    if n == 0 then [] else PagesWith(t, n - 1, search) + (if search(n - 1, t) then [n - 1] else [])
  }

  /** What one target adds to `found_pages`. */
  function TargetPages(t: string, n: nat, search: (nat, string) -> bool): (r: seq<nat>)
    ensures SkipTarget(t) ==> r == []
    ensures |r| <= n
  {
    if SkipTarget(t) then [] else PagesWith(t, n, search)
  }

  /** `found_pages` after the target loop: target after target, page after page. */
  function FoundPages(targets: seq<string>, n: nat, search: (nat, string) -> bool): (r: seq<nat>)
    // Every found page is a page of the document.
    ensures forall i :: 0 <= i < |r| ==> r[i] < n
    decreases |targets|
  {
    if targets == [] then []
    else FoundPages(targets[..|targets| - 1], n, search) + TargetPages(targets[|targets| - 1], n, search)
  }

  /** The target loop that fills `found_pages`; the page loop of one searched
      target is `AppendTargetPages`. */
  method FindPages(targets: seq<string>, pageCount: nat, search: (nat, string) -> bool) returns (found: seq<nat>)
    ensures found == FoundPages(targets, pageCount, search)
  {
    found := [];
    var i := 0;
    while i < |targets|
      invariant 0 <= i <= |targets|
      invariant found == FoundPages(targets[..i], pageCount, search)
    {
      var target := targets[i];
      assert targets[..i + 1][..i] == targets[..i] && targets[..i + 1][i] == target;
      assert FoundPages(targets[..i + 1], pageCount, search)
          == FoundPages(targets[..i], pageCount, search) + TargetPages(target, pageCount, search);
      if !(target == [] || target == "None") {
        found := AppendTargetPages(target, pageCount, search, found);
      }
      i := i + 1;
    }
    assert targets[..i] == targets;
  }

  /** The page loop of one target: every page holding it is appended, in order. */
  method AppendTargetPages(target: string, pageCount: nat, search: (nat, string) -> bool, before: seq<nat>)
    returns (found: seq<nat>)
    ensures found == before + PagesWith(target, pageCount, search)
  {
    found := before;
    var p := 0;
    while p < pageCount
      invariant 0 <= p <= pageCount
      invariant found == before + PagesWith(target, p, search)
    {
      assert PagesWith(target, p + 1, search) == PagesWith(target, p, search) + (if search(p, target) then [p] else []);
      if search(p, target) {
        found := found + [p];
      }
      p := p + 1;
    }
  }

  /** `[p for p in found_pages if p < len(doc)]`. */
  function ValidPages(found: seq<nat>, n: nat): (r: seq<nat>)
    ensures |r| <= |found|
    ensures forall i :: 0 <= i < |r| ==> r[i] < n && r[i] in found
    decreases |found|
  {
    if found == [] then []
    else (if found[0] < n then [found[0]] else []) + ValidPages(found[1..], n)
  }

  /** `valid_pages[0] if valid_pages else 0`. */
  function DisplayPage(found: seq<nat>, n: nat): (r: nat)
    ensures n > 0 ==> r < n
    ensures r == 0 || r in found
  {
    var valid := ValidPages(found, n);
    if valid == [] then 0 else valid[0]
  }

  /** Target `t` is searched for and found on some page. */
  ghost predicate Matches(t: string, n: nat, search: (nat, string) -> bool) {
    !SkipTarget(t) && exists p: nat :: p < n && search(p, t)
  }

  /** The pages of one target: exactly the pages below `n` holding it, in
      strictly ascending order. */
  lemma {:induction false} PagesWithSpec(t: string, n: nat, search: (nat, string) -> bool)
    ensures forall p: nat :: p in PagesWith(t, n, search) <==> p < n && search(p, t)
    ensures forall i, j :: 0 <= i < j < |PagesWith(t, n, search)| ==> PagesWith(t, n, search)[i] < PagesWith(t, n, search)[j]
    decreases n
  {
    if n > 0 {
      PagesWithSpec(t, n - 1, search);
      var init := PagesWith(t, n - 1, search);
      var last: seq<nat> := if search(n - 1, t) then [n - 1] else [];
      assert PagesWith(t, n, search) == init + last;
      forall i | 0 <= i < |init| ensures init[i] < n - 1 {
        assert init[i] in init;
      }
    }
  }

  /** The `< len(doc)` filter removes nothing. */
  lemma {:induction false} ValidPagesVacuous(found: seq<nat>, n: nat)
    requires forall i :: 0 <= i < |found| ==> found[i] < n
    ensures ValidPages(found, n) == found
    decreases |found|
  {
    if found != [] {
      ValidPagesVacuous(found[1..], n);
    }
  }

  /** Target `k` is the earliest-listed target found anywhere, and `d` is the
      lowest page holding it. */
  ghost predicate EarliestHit(targets: seq<string>, n: nat, search: (nat, string) -> bool, k: int, d: nat) {
    && 0 <= k < |targets| && Matches(targets[k], n, search)
    && (forall j :: 0 <= j < k ==> !Matches(targets[j], n, search))
    && d < n && search(d, targets[k])
    && forall q: nat :: q < d ==> !search(q, targets[k])
  }

  /** One target adds pages exactly when it is searched and found; the first
      page it adds is the lowest page holding it. */
  lemma TargetPagesHead(t: string, n: nat, search: (nat, string) -> bool)
    ensures TargetPages(t, n, search) != [] <==> Matches(t, n, search)
    ensures TargetPages(t, n, search) != [] ==>
      var d := TargetPages(t, n, search)[0];
      d < n && search(d, t) && forall q: nat :: q < d ==> !search(q, t)
  {
    var row := TargetPages(t, n, search);
    PagesWithSpec(t, n, search);
    if Matches(t, n, search) {
      var p: nat :| p < n && search(p, t);
      assert p in row;
    }
    if row != [] {
      assert row[0] in row;
      forall q: nat | q < row[0] ensures !search(q, t) {
      }
    }
  }

  /** `found_pages` is empty exactly when no searched target is found anywhere. */
  lemma {:induction false} FoundPagesEmpty(targets: seq<string>, n: nat, search: (nat, string) -> bool)
    ensures FoundPages(targets, n, search) == [] <==> forall k :: 0 <= k < |targets| ==> !Matches(targets[k], n, search)
    decreases |targets|
  {
    if targets != [] {
      var m := |targets| - 1;
      var init := targets[..m];
      var head, row := FoundPages(init, n, search), TargetPages(targets[m], n, search);
      assert FoundPages(targets, n, search) == head + row;
      assert FoundPages(targets, n, search) == [] <==> head == [] && row == [];
      FoundPagesEmpty(init, n, search);
      TargetPagesHead(targets[m], n, search);
      NoneMatchSplit(targets, n, search);
    }
  }

  /** No target matches exactly when none of the first `|targets| - 1` does
      and the last does not. */
  lemma NoneMatchSplit(targets: seq<string>, n: nat, search: (nat, string) -> bool)
    requires targets != []
    ensures var m := |targets| - 1;
      (forall k :: 0 <= k < |targets| ==> !Matches(targets[k], n, search)) <==>
      (forall k :: 0 <= k < m ==> !Matches(targets[..m][k], n, search)) && !Matches(targets[m], n, search)
  {
    var m := |targets| - 1;
    assert forall k :: 0 <= k < m ==> targets[..m][k] == targets[k];
  }

  /** A non-empty `found_pages` starts with the lowest page of the
      earliest-listed target that is found. */
  lemma {:induction false} FoundPagesHead(targets: seq<string>, n: nat, search: (nat, string) -> bool)
    requires FoundPages(targets, n, search) != []
    ensures EarliestHit(targets, n, search, IndexOfEarliest(targets, n, search), FoundPages(targets, n, search)[0])
    decreases |targets|
  {
    var m := |targets| - 1;
    var init, last := targets[..m], targets[m];
    var head := FoundPages(init, n, search);
    var row := TargetPages(last, n, search);
    assert FoundPages(targets, n, search) == head + row;
    assert forall k :: 0 <= k < m ==> init[k] == targets[k];
    if head != [] {
      FoundPagesHead(init, n, search);
      assert IndexOfEarliest(targets, n, search) == IndexOfEarliest(init, n, search);
      assert (head + row)[0] == head[0];
      EarliestHitExtends(targets, m, n, search, IndexOfEarliest(init, n, search), head[0]);
    } else {
      FoundPagesEmpty(init, n, search);
      TargetPagesHead(last, n, search);
      assert IndexOfEarliest(targets, n, search) == m;
      assert (head + row)[0] == row[0];
    }
  }

  /** An earliest hit among the first `m` targets stays the earliest hit of all. */
  lemma EarliestHitExtends(targets: seq<string>, m: nat, n: nat, search: (nat, string) -> bool, k: int, d: nat)
    requires m <= |targets| && EarliestHit(targets[..m], n, search, k, d)
    ensures EarliestHit(targets, n, search, k, d)
  {
    assert targets[k] == targets[..m][k];
    forall j | 0 <= j < k ensures !Matches(targets[j], n, search) {
      assert targets[j] == targets[..m][j];
    }
  }

  /** The index of the first target that is found, or `|targets|`. */
  ghost function IndexOfEarliest(targets: seq<string>, n: nat, search: (nat, string) -> bool): nat
    decreases |targets|
  {
    if targets == [] then 0
    else if FoundPages(targets[..|targets| - 1], n, search) != [] then IndexOfEarliest(targets[..|targets| - 1], n, search)
    else |targets| - 1
  }

  /** The evidence page: page 0 when nothing was found; otherwise the lowest
      page holding the earliest-listed target that is found anywhere (not
      necessarily the lowest page on which any target is found). It is a page
      of any non-empty document. */
  lemma DisplayPageChoice(targets: seq<string>, n: nat, search: (nat, string) -> bool)
    ensures n > 0 ==> DisplayPage(FoundPages(targets, n, search), n) < n
    ensures (forall k :: 0 <= k < |targets| ==> !Matches(targets[k], n, search)) ==>
      DisplayPage(FoundPages(targets, n, search), n) == 0
    ensures (exists k :: 0 <= k < |targets| && Matches(targets[k], n, search)) ==>
      exists k :: EarliestHit(targets, n, search, k, DisplayPage(FoundPages(targets, n, search), n))
  {
    var found := FoundPages(targets, n, search);
    ValidPagesVacuous(found, n);
    FoundPagesEmpty(targets, n, search);
    if found != [] {
      FoundPagesHead(targets, n, search);
    }
  }

  /** With the value "0.75" only on page 2 and the value "5.0" only on page 0,
      the evidence page is page 2, although page 0 also holds a target. */
  lemma EarliestTargetNotLowestPage()
    ensures var search := (p: nat, t: string) => (t == "0.75" && p == 2) || (t == "5.0" && p == 0);
      && DisplayPage(FoundPages(["0.75", "5.0"], 3, search), 3) == 2
      && search(0, "5.0")
  {
    var search := (p: nat, t: string) => (t == "0.75" && p == 2) || (t == "5.0" && p == 0);
    assert PagesWith("0.75", 3, search) == [2] by {
      assert PagesWith("0.75", 2, search) == [] by {
        assert PagesWith("0.75", 1, search) == [];
      }
    }
    assert PagesWith("5.0", 3, search) == [0] by {
      assert PagesWith("5.0", 2, search) == [0] by {
        assert PagesWith("5.0", 1, search) == [0];
      }
    }
    var ts: seq<string> := ["0.75", "5.0"];
    assert ts[..1] == ["0.75"] && ts[..1][..0] == [];
    assert FoundPages(ts[..1], 3, search) == [2];
    assert FoundPages(ts, 3, search) == [2, 0];
    ValidPagesVacuous([2, 0], 3);
  }

  datatype ExtractionReply =
    // {"status": "ERROR", "reason": reason}
    | DocNotFound(reason: string)
    // the model call or its JSON parsing raised; nothing is stored
    | BrainRaised
    // {"data": ..., "evidence_url": ..., "page_num": ...}
    | Evidence(data: ExtractedData, evidenceUrl: string, pageNum: nat)
    // `doc[0]` raised on a document without pages, after the data was stored
    | EmptyDocument(data: ExtractedData)

  function EvidencePath(docId: string, now: int): (r: string)
    ensures |r| == |docId| + |IntToString(now)| + 21 && "static/evidence_" + docId + "_" <= r
    ensures r[|docId| + 17..|r| - 4] == IntToString(now) && r[|r| - 4..] == ".png"
  {
    "static/evidence_" + docId + "_" + IntToString(now) + ".png"
  }

  /** `local_extraction` as a transition of the vault; `now` is the integer
      timestamp of the evidence image. */
  function Extract(vault: Vault, svc: Services, docId: string, now: int): (r: (Vault, ExtractionReply))
    // Only an unknown id is "not found", and extraction never adds or removes a document.
    ensures r.1.DocNotFound? <==> docId !in vault
    ensures r.0.Keys == vault.Keys
    ensures forall k :: k in vault && k != docId ==> r.0[k] == vault[k]
  {
    if docId !in vault then (vault, DocNotFound(DocNotFoundReason))
    else
      var rec := vault[docId];
      var pages := svc.openPdf(rec.path);
      match svc.gemini(BlocksOf(pages))
      case None => (vault, BrainRaised)
      case Some(data) =>
        (vault[docId := rec.(extractedData := Some(data))], ShowEvidence(svc, docId, now, data, rec.path, |pages|))
  }

  /** The reply after the data is stored: the evidence page found by the
      target search, or the failure to open page 0 of an empty document. */
  function ShowEvidence(svc: Services, docId: string, now: int, data: ExtractedData,
                        path: string, pageCount: nat): (r: ExtractionReply)
    // Rendering fails only on a document without pages.
    ensures r.EmptyDocument? <==> pageCount == 0
    ensures r.Evidence? || r.EmptyDocument?
    ensures r.Evidence? ==> r.data == data && 1 <= r.pageNum <= pageCount && r.evidenceUrl == EvidencePath(docId, now)
    ensures r.EmptyDocument? ==> r.data == data
    // The page shown is the evidence page chosen from the target search.
    ensures r.Evidence? ==>
      r.pageNum == DisplayPage(FoundPages(HighlightTargets(data, svc.renderNumber), pageCount, svc.searchFor(path)), pageCount) + 1
  {
    var found := FoundPages(HighlightTargets(data, svc.renderNumber), pageCount, svc.searchFor(path));
    ShowPage(data, EvidencePath(docId, now), DisplayPage(found, pageCount), pageCount)
  }

  /** Rendering page `shown` of a document with `pageCount` pages. */
  function ShowPage(data: ExtractedData, url: string, shown: nat, pageCount: nat): ExtractionReply {
    if shown < pageCount then Evidence(data, url, shown + 1) else EmptyDocument(data)
  }

  /** The highlight search and the evidence page of `local_extraction`, after
      the model's reply is stored. */
  method LocateEvidence(svc: Services, docId: string, now: int, data: ExtractedData,
                        path: string, pageCount: nat) returns (reply: ExtractionReply)
    ensures reply == ShowEvidence(svc, docId, now, data, path, pageCount)
  {
    var targets := HighlightTargets(data, svc.renderNumber);
    var found := FindPages(targets, pageCount, svc.searchFor(path));
    var displayPageIdx := ChooseDisplayPage(found, pageCount);
    var url := EvidencePath(docId, now);
    if displayPageIdx < pageCount {
      reply := Evidence(data, url, displayPageIdx + 1);
    } else {
      reply := EmptyDocument(data);
    }
    ShowEvidenceOf(svc, docId, now, data, path, pageCount);
  }

  /** `valid_pages[0] if valid_pages else 0` over the found pages. */
  method ChooseDisplayPage(found: seq<nat>, pageCount: nat) returns (d: nat)
    ensures d == DisplayPage(found, pageCount)
    ensures pageCount > 0 ==> d < pageCount
  {
    var validPages := ValidPages(found, pageCount);
    d := if validPages != [] then validPages[0] else 0;
  }

  /** `ShowEvidence` renders the display page of the pages found. */
  lemma ShowEvidenceOf(svc: Services, docId: string, now: int, data: ExtractedData,
                       path: string, pageCount: nat)
    ensures ShowEvidence(svc, docId, now, data, path, pageCount)
         == ShowPage(data, EvidencePath(docId, now),
                     DisplayPage(FoundPages(HighlightTargets(data, svc.renderNumber), pageCount, svc.searchFor(path)), pageCount),
                     pageCount)
  {
  }

  /** Extraction of an unknown document answers "Doc ID not found" and
      leaves the vault as it was. Otherwise it adds the model's reply to the
      record and keeps the rest of the record and of the vault; the page
      number shown is 1-based and within the document, and only a document
      without pages fails to render. */
  lemma ExtractionEffect(vault: Vault, svc: Services, docId: string, now: int)
    ensures var (v, reply) := Extract(vault, svc, docId, now);
      && (docId !in vault ==> v == vault && reply == DocNotFound("Doc ID not found"))
      && (docId in vault ==>
            var rec := vault[docId];
            var pages := svc.openPdf(rec.path);
            match svc.gemini(BlocksOf(pages))
            case None => v == vault && reply == BrainRaised
            case Some(data) =>
              && v.Keys == vault.Keys
              && (forall k :: k in vault && k != docId ==> v[k] == vault[k])
              && v[docId].extractedData == Some(data)
              && v[docId].safeText == rec.safeText && v[docId].path == rec.path
              && v[docId].satRes == rec.satRes
              && reply == ShowEvidence(svc, docId, now, data, rec.path, |pages|)
              && (reply.EmptyDocument? <==> |pages| == 0)
              && (reply.Evidence? ==> reply.data == data && 1 <= reply.pageNum <= |pages|))
  {
    if docId in vault {
      var rec := vault[docId];
      var pages := svc.openPdf(rec.path);
      if svc.gemini(BlocksOf(pages)).Some? {
        var data := svc.gemini(BlocksOf(pages)).value;
        DisplayPageChoice(HighlightTargets(data, svc.renderNumber), |pages|, svc.searchFor(rec.path));
      }
    }
  }

  /** The page shown as evidence: page 1 of a non-empty document when no
      searched target is found anywhere; otherwise the lowest page holding the
      earliest-listed target that is found. */
  lemma EvidencePageChoice(svc: Services, docId: string, now: int, data: ExtractedData, path: string, pageCount: nat)
    ensures var r := ShowEvidence(svc, docId, now, data, path, pageCount);
      var targets := HighlightTargets(data, svc.renderNumber);
      var search := svc.searchFor(path);
      var d := DisplayPage(FoundPages(targets, pageCount, search), pageCount);
      && (pageCount > 0 ==> r.Evidence? && r.pageNum == d + 1)
      && (pageCount > 0 && (forall k :: 0 <= k < |targets| ==> !Matches(targets[k], pageCount, search))
          ==> d == 0)
      && ((exists k :: 0 <= k < |targets| && Matches(targets[k], pageCount, search))
          ==> pageCount > 0 && exists k :: EarliestHit(targets, pageCount, search, k, d))
  {
    var targets := HighlightTargets(data, svc.renderNumber);
    var search := svc.searchFor(path);
    DisplayPageChoice(targets, pageCount, search);
    if exists k :: 0 <= k < |targets| && Matches(targets[k], pageCount, search) {
      var k :| 0 <= k < |targets| && Matches(targets[k], pageCount, search);
      var p: nat :| p < pageCount && search(p, targets[k]);
    }
  }

  // ---------------------------------------------------------------------
  // Verification: GPS split and error conversion
  // ---------------------------------------------------------------------

  /** The exceptions `local_verification` converts into `{"status": "ERROR", "reason": str(e)}`. */
  datatype Fault =
    | RecordMissing        // `None.get`: no record for the id
    | ExtractionMissing    // `None['gps']`: the record has no extracted data
    | GpsNotText           // `',' in x` on a GPS value that is a number or null
    | GpsTooFewTokens      // `parts[1]` on fewer than two whitespace tokens
    | NdviNotNumber(message: string)  // `float(...)` on the NDVI value

  /** The coordinates as the two strings handed to the verifier: the
      stripped first and second comma fields when there is a comma, else the
      first two whitespace tokens; `None` when there are fewer than two. */
  function SplitGps(gps: string): (r: Option<(string, string)>)
    // Only a comma-free value with fewer than two tokens has no coordinates.
    ensures r.None? <==> ',' !in gps && |Words(gps)| < 2
    // The coordinates never carry surrounding whitespace.
    ensures r.Some? ==> Strip(r.value.0) == r.value.0 && Strip(r.value.1) == r.value.1
    // Without a comma they are non-empty and hold no whitespace at all.
    ensures r.Some? && ',' !in gps ==> r.value.0 != [] && NoSpace(r.value.0) && r.value.1 != [] && NoSpace(r.value.1)
  {
    if ',' in gps then
      var fields := SplitOn(gps, ',');
      StripIdempotent(fields[0]);
      StripIdempotent(fields[1]);
      Some((Strip(fields[0]), Strip(fields[1])))
    else
      var parts := Words(gps);
      if |parts| < 2 then None
      else
        StripNoSpace(parts[0]);
        StripNoSpace(parts[1]);
        Some((parts[0], parts[1]))
  }

  datatype Preparation = Ready(lat: string, lon: string, target: real) | Refused(fault: Fault)

  /** Everything `local_verification` does before calling the verifier. */
  function Prepare(vault: Vault, docId: string, parseFloat: string -> Parsed): (p: Preparation)
    ensures docId !in vault ==> p == Refused(RecordMissing)
    ensures docId in vault && vault[docId].extractedData.None? ==> p == Refused(ExtractionMissing)
    ensures docId in vault && vault[docId].extractedData.Some? && !vault[docId].extractedData.value.gps.value.JStr?
            ==> p == Refused(GpsNotText)
    ensures docId in vault && vault[docId].extractedData.Some? && vault[docId].extractedData.value.gps.value.JStr?
            && SplitGps(vault[docId].extractedData.value.gps.value.text).None?
            ==> p == Refused(GpsTooFewTokens)
    ensures docId in vault && vault[docId].extractedData.Some? && vault[docId].extractedData.value.gps.value.JStr?
            && SplitGps(vault[docId].extractedData.value.gps.value.text).Some?
            && PyFloat(vault[docId].extractedData.value.ndvi.value, parseFloat).NotNumber?
            ==> p == Refused(NdviNotNumber(PyFloat(vault[docId].extractedData.value.ndvi.value, parseFloat).message))
    // Every check passing is exactly what makes the verifier call happen.
    ensures p.Ready? <==>
      && docId in vault && vault[docId].extractedData.Some?
      && vault[docId].extractedData.value.gps.value.JStr?
      && SplitGps(vault[docId].extractedData.value.gps.value.text).Some?
      && PyFloat(vault[docId].extractedData.value.ndvi.value, parseFloat).Number?
    ensures p.Ready? ==> docId in vault && vault[docId].extractedData.Some?
    ensures p.Ready? ==>
      var d := vault[docId].extractedData.value;
      && d.gps.value.JStr?
      && SplitGps(d.gps.value.text) == Some((p.lat, p.lon))
      && PyFloat(d.ndvi.value, parseFloat) == Number(p.target)
  {
    if docId !in vault then Refused(RecordMissing)
    else
      match vault[docId].extractedData
      case None => Refused(ExtractionMissing)
      case Some(data) =>
        match data.gps.value
        case JStr(gps) =>
          (match SplitGps(gps)
           case None => Refused(GpsTooFewTokens)
           case Some((lat, lon)) =>
             match PyFloat(data.ndvi.value, parseFloat)
             case NotNumber(m) => Refused(NdviNotNumber(m))
             case Number(target) => Ready(lat, lon, target))
        case JNum(_) => Refused(GpsNotText)
        case JNull => Refused(GpsNotText)
  }

  datatype VerificationReply =
    // {"status": "ERROR", "reason": str(e)}
    | VerificationError(fault: Fault)
    // whatever the verifier returned
    | Verified(result: VerifyResult)

  /** `local_verification` as a transition of the vault. */
  function VerifyStage(vault: Vault, svc: Services, docId: string): (r: (Vault, VerificationReply))
    // The verifier is consulted exactly when preparation succeeds.
    ensures r.1.Verified? <==> Prepare(vault, docId, svc.parseFloat).Ready?
    // Verification never adds or removes a document, and touches only its own.
    ensures r.0.Keys == vault.Keys
    ensures forall k :: k in vault && k != docId ==> r.0[k] == vault[k]
  {
    match Prepare(vault, docId, svc.parseFloat)
    case Refused(f) => (vault, VerificationError(f))
    case Ready(lat, lon, target) =>
      var r := VerifyZonalTruth(lat, lon, target, svc.parseFloat, svc.earthEngine);
      (vault[docId := vault[docId].(satRes := Some(r))], Verified(r))
  }

  /** A failure before the verifier call is reported as an error and writes
      nothing; otherwise the verifier's result, whatever its status, is
      stored under `sat_res` and returned unchanged. */
  lemma VerificationEffect(vault: Vault, svc: Services, docId: string)
    ensures var (v, reply) := VerifyStage(vault, svc, docId);
      && (reply.VerificationError? <==> Prepare(vault, docId, svc.parseFloat).Refused?)
      && (reply.VerificationError? ==> v == vault)
      && (docId !in vault ==> reply == VerificationError(RecordMissing))
      && (docId in vault && vault[docId].extractedData.None? ==> reply == VerificationError(ExtractionMissing))
      && (var p := Prepare(vault, docId, svc.parseFloat);
          p.Ready? ==> reply == Verified(VerifyZonalTruth(p.lat, p.lon, p.target, svc.parseFloat, svc.earthEngine)))
      && (reply.Verified? ==>
            && v.Keys == vault.Keys
            && (forall k :: k in vault && k != docId ==> v[k] == vault[k])
            && v[docId] == vault[docId].(satRes := Some(reply.result)))
  {
  }

  /** With a comma, the coordinates are the stripped first two comma fields
      and any further fields are ignored. */
  lemma SplitGpsCommaFields(a: string, b: string, tail: string)
    requires ',' !in a && ',' !in b
    requires tail == [] || tail[0] == ','
    ensures SplitGps(a + "," + b + tail) == Some((Strip(a), Strip(b)))
  {
    var s := a + "," + b + tail;
    assert s == a + [','] + (b + tail);
    assert ',' in s by { assert s[|a|] == ','; }
    SplitOnFirstField(a, ',', b + tail);
    if tail == [] {
      assert b + tail == b;
      SplitOnNoSep(b, ',');
    } else {
      assert b + tail == b + [','] + tail[1..];
      SplitOnFirstField(b, ',', tail[1..]);
    }
  }

  /** A token followed by whitespace is the first word: `(t + w + tail).split()`
      is `[t] + tail.split()` for blank, non-empty `w`. */
  lemma {:induction false} WordsAfterToken(t: string, w: string, tail: string)
    requires t != [] && NoSpace(t)
    requires w != [] && forall i :: 0 <= i < |w| ==> IsSpace(w[i])
    ensures Words(t + w + tail) == [t] + Words(tail)
  {
    assert t + w + tail == t + [w[0]] + (w[1..] + tail);
    WordsConcatSpace(t, w[0], w[1..] + tail);
    WordsSkipSpaces(w[1..], tail);
    WordsSingle(t);
  }

  /** A token that ends the text or is followed by whitespace is the first word. */
  lemma WordsLeadingToken(t: string, rest: string)
    requires t != [] && NoSpace(t)
    requires rest == [] || IsSpace(rest[0])
    ensures |Words(t + rest)| >= 1 && Words(t + rest)[0] == t
  {
    if rest == [] {
      assert t + rest == t;
      WordsSingle(t);
    } else {
      var c, r := rest[0], rest[1..];
      assert t + rest == t + [c] + r;
      WordsConcatSpace(t, c, r);
      WordsSingle(t);
      assert Words(t + rest) == [t] + Words(r);
    }
  }

  /** The first two whitespace tokens of a blank-padded pair are the pair. */
  lemma SpacedPairWords(w0: string, lat: string, w1: string, lon: string, rest: string)
    requires forall i :: 0 <= i < |w0| ==> IsSpace(w0[i])
    requires w1 != [] && forall i :: 0 <= i < |w1| ==> IsSpace(w1[i])
    requires lat != [] && NoSpace(lat) && lon != [] && NoSpace(lon)
    requires rest == [] || IsSpace(rest[0])
    ensures var ws := Words(w0 + lat + w1 + lon + rest);
      |ws| >= 2 && ws[0] == lat && ws[1] == lon
  {
    var tail := lon + rest;
    var core := lat + w1 + tail;
    assert w0 + lat + w1 + lon + rest == w0 + core;
    WordsSkipSpaces(w0, core);
    WordsAfterToken(lat, w1, tail);
    WordsLeadingToken(lon, rest);
  }

  /** Without a comma, the coordinates are the first two whitespace tokens,
      whatever whitespace surrounds and separates them and whatever tokens
      follow. */
  lemma SplitGpsSpaced(w0: string, lat: string, w1: string, lon: string, rest: string)
    requires forall i :: 0 <= i < |w0| ==> IsSpace(w0[i])
    requires w1 != [] && forall i :: 0 <= i < |w1| ==> IsSpace(w1[i])
    requires lat != [] && NoSpace(lat) && ',' !in lat
    requires lon != [] && NoSpace(lon) && ',' !in lon
    requires rest == [] || IsSpace(rest[0])
    requires ',' !in rest
    ensures SplitGps(w0 + lat + w1 + lon + rest) == Some((lat, lon))
  {
    assert ',' !in w0 && ',' !in w1 by {
      assert !IsSpace(',');
    }
    var s := w0 + lat + w1 + lon + rest;
    assert ',' !in s;
    SpacedPairWords(w0, lat, w1, lon, rest);
  }

  /** A single token, such as the sentinel "NOT_PROVIDED" on its own, has no
      second coordinate: verification reports an error instead of reaching
      the verifier's sentinel guard. */
  lemma SingleTokenGpsRefused(vault: Vault, docId: string, parseFloat: string -> Parsed, gps: string)
    requires gps != [] && NoSpace(gps) && ',' !in gps
    requires docId in vault && vault[docId].extractedData.Some?
    requires vault[docId].extractedData.value.gps.value == JStr(gps)
    ensures SplitGps(gps) == None
    ensures Prepare(vault, docId, parseFloat) == Refused(GpsTooFewTokens)
  {
    WordsSingle(gps);
  }

  /** The highlight tokens of "lat, lon" are exactly `lat` and `lon`. */
  lemma GpsTokensOfPair(lat: string, lon: string)
    requires |lat| > 2 && NoSpace(lat) && ',' !in lat
    requires |lon| > 2 && NoSpace(lon) && ',' !in lon
    ensures GpsTokens(lat + ", " + lon) == [lat, lon]
  {
    var s := lat + ", " + lon;
    var spaced := [' '] + lon;
    var replaced := ReplaceChar(s, ',', ' ');
    assert replaced == lat + [' '] + spaced by {
      assert |replaced| == |lat| + 2 + |lon|;
      forall i | 0 <= i < |replaced| ensures replaced[i] == (lat + [' '] + spaced)[i] {
        if i < |lat| { assert s[i] == lat[i]; }
        else if i >= |lat| + 2 { assert s[i] == lon[i - |lat| - 2]; }
      }
    }
    WordsConcatSpace(lat, ' ', spaced);
    assert Words(spaced) == Words(lon) by {
      assert spaced[1..] == lon;
    }
    WordsSingle(lat);
    WordsSingle(lon);
    StripNoSpace(lat);
    StripNoSpace(lon);
    var ws := [lat, lon];
    assert ws[1..] == [lon];
    assert LongTokens([lon]) == [lon];
  }

  /** The verifier's coordinates for "lat, lon" are exactly `lat` and `lon`. */
  lemma SplitGpsOfPair(lat: string, lon: string)
    requires lat != [] && NoSpace(lat) && ',' !in lat
    requires lon != [] && NoSpace(lon) && ',' !in lon
    ensures SplitGps(lat + ", " + lon) == Some((lat, lon))
  {
    var spaced := " " + lon;
    assert ',' !in spaced;
    SplitGpsCommaFields(lat, spaced, []);
    assert lat + ", " + lon == lat + "," + spaced + [];
    StripNoSpace(lat);
    StripNoSpace(lon);
    assert TrimStart(spaced) == TrimStart(lon) by {
      assert spaced[1..] == lon;
    }
  }

  /** For a GPS value written "lat, lon" the highlight tokens and the
      verifier's coordinates agree: both are exactly `lat` and `lon`. */
  lemma GpsStagesAgree(lat: string, lon: string)
    requires |lat| > 2 && NoSpace(lat) && ',' !in lat
    requires |lon| > 2 && NoSpace(lon) && ',' !in lon
    ensures GpsTokens(lat + ", " + lon) == [lat, lon]
    ensures SplitGps(lat + ", " + lon) == Some((lat, lon))
  {
    GpsTokensOfPair(lat, lon);
    SplitGpsOfPair(lat, lon);
  }

  // ---------------------------------------------------------------------
  // The vault
  // ---------------------------------------------------------------------

  /** The module state of the driver: its services, the ledger it was set up
      with, and the vault, which only the stage methods change. */
  class AuditVault {
    const services: Services
    const ledger: TrustLedger.Ledger
    var vault: Vault

    constructor (services: Services)
      ensures this.services == services
      ensures ledger == TrustLedger.NewLedger(150.0)
      ensures vault == map[]
    {
      this.services := services;
      ledger := TrustLedger.NewLedger(150.0);
      vault := map[];
    }

    /** `local_masking(file_bytes, filename)`. */
    method LocalMasking(fileBytes: seq<bv8>, filename: string) returns (reply: MaskingReply)
      modifies this
      ensures (vault, reply) == Mask(old(vault), services, fileBytes, filename)
    {
      var docId := services.md5Hex(fileBytes);
      var processed := services.processPdf(fileBytes, filename);
      if processed.None? {
        reply := MaskingRaised;
        return;
      }
      var safeText := processed.value;
      var maskedPdfPath := "static/masked_" + docId + ".pdf";
      vault := vault[docId := Record(safeText, maskedPdfPath, None, None)];
      var preview := if |safeText| <= 1200 then safeText else safeText[..1200];
      reply := Masked(docId, preview, SecuredStatus);
    }

    /** `local_extraction(doc_id)`; `now` is the timestamp of the evidence image. */
    method LocalExtraction(docId: string, now: int) returns (reply: ExtractionReply)
      modifies this
      ensures (vault, reply) == Extract(old(vault), services, docId, now)
    {
      if docId !in vault {
        reply := DocNotFound(DocNotFoundReason);
        return;
      }
      var rec := vault[docId];
      var pages := services.openPdf(rec.path);
      var extracted := Run(pages, services.gemini);
      if extracted.None? {
        reply := BrainRaised;
        return;
      }
      var data := extracted.value;
      vault := vault[docId := vault[docId].(extractedData := Some(data))];
      reply := LocateEvidence(services, docId, now, data, rec.path, |pages|);
      assert vault == old(vault)[docId := rec.(extractedData := Some(data))];
    }

    /** `local_verification(doc_id)`. */
    method LocalVerification(docId: string) returns (reply: VerificationReply)
      modifies this
      ensures (vault, reply) == VerifyStage(old(vault), services, docId)
    {
      var prepared := Prepare(vault, docId, services.parseFloat);
      if prepared.Refused? {
        reply := VerificationError(prepared.fault);
        return;
      }
      var result := VerifyZonalTruth(prepared.lat, prepared.lon, prepared.target,
                                     services.parseFloat, services.earthEngine);
      vault := vault[docId := vault[docId].(satRes := Some(result))];
      reply := Verified(result);
    }

    /** `local_audit(...)`: settlement does not touch the vault; `now` is the
        report's timestamp. */
    method LocalAudit(docId: string, target: real, actual: Option<real>, breachRatio: real,
                      ratchetBps: real, now: string) returns (settlement: TrustLedger.Settlement)
      ensures settlement == TrustLedger.CalculateFinalVerdict(ledger, docId, target, actual, breachRatio,
                                                              ratchetBps, services.renderNumber,
                                                              services.sha256Hex, now)
    {
      settlement := TrustLedger.CalculateFinalVerdict(ledger, docId, target, actual, breachRatio,
                                                      ratchetBps, services.renderNumber,
                                                      services.sha256Hex, now);
    }
  }
}

=== FILE: common.dfy ===
/** Values and Python string operations shared by every stage of the audit
    pipeline: an Option type, the scalar JSON values the extraction backend
    returns, and the parts of Python's `str` API the pipeline relies on
    (`strip`, `split()`, `split(sep)`, `in`, `lower`, `str(...)`, `float(...)`). */
module Common {

  datatype Option<T> = None | Some(value: T)

  /** A scalar JSON value as produced by `json.loads`: a string, a number or `null`. */
  datatype JsonValue = JStr(text: string) | JNum(number: real) | JNull

  /** The outcome of Python's `float(...)`: a number, or the text of the `ValueError`/`TypeError`. */
  datatype Parsed = Number(value: real) | NotNumber(message: string)

  function Min(a: int, b: int): int { if a <= b then a else b }

  function Abs(x: real): (r: real)
    ensures r >= 0.0 && (r == x || r == -x)
  {
    if x < 0.0 then -x else x
  }

  /** Python's `str.isspace()` for one character (the separators of `split()` and `strip()`). */
  predicate IsSpace(c: char) {
    || c == ' '
    || ('\t' <= c <= '\r')
    || ('\U{1C}' <= c <= '\U{1F}')
    || c == '\U{85}' || c == '\U{A0}' || c == '\U{1680}'
    || ('\U{2000}' <= c <= '\U{200A}')
    || c == '\U{2028}' || c == '\U{2029}' || c == '\U{202F}' || c == '\U{205F}' || c == '\U{3000}'
  }

  predicate NoSpace(s: string) {
    forall i :: 0 <= i < |s| ==> !IsSpace(s[i])
  }

  /** `s.lstrip()`: drops the leading whitespace, and only that. */
  function TrimStart(s: string): (r: string)
    ensures |r| <= |s|
    ensures r == [] || !IsSpace(r[0])
    ensures forall i :: 0 <= i < |s| - |r| ==> IsSpace(s[i])
    decreases |s|
  {
    if s != [] && IsSpace(s[0]) then TrimStart(s[1..]) else s
  }

  /** `s.rstrip()`: drops the trailing whitespace, and only that. */
  function TrimEnd(s: string): (r: string)
    ensures |r| <= |s|
    ensures r == [] || !IsSpace(r[|r| - 1])
    ensures forall i :: |r| <= i < |s| ==> IsSpace(s[i])
    decreases |s|
  {
    if s != [] && IsSpace(s[|s| - 1]) then TrimEnd(s[..|s| - 1]) else s
  }

  /** `s.lstrip()` keeps a suffix of `s`. */
  lemma {:induction false} TrimStartIsSuffix(s: string)
    ensures TrimStart(s) == s[|s| - |TrimStart(s)|..]
    decreases |s|
  {
    if s != [] && IsSpace(s[0]) {
      TrimStartIsSuffix(s[1..]);
    }
  }

  /** `s.rstrip()` keeps a prefix of `s`. */
  lemma {:induction false} TrimEndIsPrefix(s: string)
    ensures TrimEnd(s) == s[..|TrimEnd(s)|]
    decreases |s|
  {
    if s != [] && IsSpace(s[|s| - 1]) {
      TrimEndIsPrefix(s[..|s| - 1]);
    }
  }

  /** `s.strip()`: the result neither starts nor ends with whitespace. */
  function Strip(s: string): (r: string)
    ensures r == [] || (!IsSpace(r[0]) && !IsSpace(r[|r| - 1]))
    ensures |r| <= |s|
  {
    var t := TrimStart(s);
    TrimEndIsPrefix(t);
    TrimEnd(t)
  }

  /** The strip of `s` is empty exactly when `s` is blank; this is Python's
      truth test `if s.strip()`. */
  lemma StripBlank(s: string)
    ensures Strip(s) == [] <==> forall i :: 0 <= i < |s| ==> IsSpace(s[i])
  {
    var t := TrimStart(s);
    TrimStartIsSuffix(s);
    if t != [] {
      assert t[0] == s[|s| - |t|];
    }
  }

  /** Stripping is idempotent. */
  lemma StripIdempotent(s: string)
    ensures Strip(Strip(s)) == Strip(s)
  {
    var r := Strip(s);
    assert TrimStart(r) == r;
    assert TrimEnd(r) == r;
  }

  /** A string without whitespace is its own strip. */
  lemma StripNoSpace(s: string)
    requires NoSpace(s)
    ensures Strip(s) == s
  {
    assert TrimStart(s) == s;
    assert TrimEnd(s) == s;
  }

  /** `StripNoSpace` as an implication, for use inside expressions. */
  lemma StripNoSpaceIf(s: string)
    ensures NoSpace(s) ==> Strip(s) == s
  {
    if NoSpace(s) {
      StripNoSpace(s);
    }
  }

  /** Leading whitespace does not survive `lstrip()`. */
  lemma {:induction false} TrimStartBlank(w: string, y: string)
    requires forall i :: 0 <= i < |w| ==> IsSpace(w[i])
    ensures TrimStart(w + y) == TrimStart(y)
    decreases |w|
  {
    if w != [] {
      assert (w + y)[0] == w[0] && IsSpace(w[0]) && (w + y)[1..] == w[1..] + y;
      TrimStartBlank(w[1..], y);
      assert TrimStart(w + y) == TrimStart(w[1..] + y);
    } else {
      assert w + y == y;
    }
  }

  /** Trailing whitespace does not survive `rstrip()`. */
  lemma {:induction false} TrimEndBlank(y: string, w: string)
    requires forall i :: 0 <= i < |w| ==> IsSpace(w[i])
    ensures TrimEnd(y + w) == TrimEnd(y)
    decreases |w|
  {
    if w != [] {
      var n := |w| - 1;
      assert (y + w)[|y + w| - 1] == w[n] && IsSpace(w[n]) && (y + w)[..|y + w| - 1] == y + w[..n];
      assert forall i :: 0 <= i < n ==> w[..n][i] == w[i];
      TrimEndBlank(y, w[..n]);
      assert TrimEnd(y + w) == TrimEnd(y + w[..n]);
    } else {
      assert y + w == y;
    }
  }

  /** Once `lstrip()` reaches a non-whitespace character, what follows is kept. */
  lemma {:induction false} TrimStartAppend(x: string, w: string)
    requires TrimStart(x) != []
    ensures TrimStart(x + w) == TrimStart(x) + w
    decreases |x|
  {
    assert (x + w)[0] == x[0];
    if IsSpace(x[0]) {
      assert (x + w)[1..] == x[1..] + w;
      TrimStartAppend(x[1..], w);
    }
  }

  /** Whitespace around a text does not change its strip. */
  lemma StripPadded(w0: string, x: string, w1: string)
    requires forall i :: 0 <= i < |w0| ==> IsSpace(w0[i])
    requires forall i :: 0 <= i < |w1| ==> IsSpace(w1[i])
    ensures Strip(w0 + x + w1) == Strip(x)
  {
    assert w0 + x + w1 == w0 + (x + w1);
    TrimStartBlank(w0, x + w1);
    var t := TrimStart(x);
    if t != [] {
      TrimStartAppend(x, w1);
      TrimEndBlank(t, w1);
    } else {
      var xw := x + w1;
      assert forall i :: 0 <= i < |xw| ==> IsSpace(xw[i]) by {
        forall i | 0 <= i < |xw| ensures IsSpace(xw[i]) {
          if i >= |x| { assert xw[i] == w1[i - |x|]; }
        }
      }
      TrimStartBlank(xw, []);
      assert xw + [] == xw;
    }
  }

  /** Length of the run of non-whitespace characters that starts `s`. */
  function TokenLen(s: string): (k: nat)
    ensures k <= |s|
    ensures forall i :: 0 <= i < k ==> !IsSpace(s[i])
    ensures k < |s| ==> IsSpace(s[k])
    decreases |s|
  {
    if s == [] || IsSpace(s[0]) then 0 else 1 + TokenLen(s[1..])
  }

  /** Python's `s.split()` with no argument: the maximal runs of non-whitespace
      characters, in order; every word is non-empty and holds no whitespace. */
  function Words(s: string): (r: seq<string>)
    ensures forall i :: 0 <= i < |r| ==> r[i] != [] && NoSpace(r[i])
    decreases |s|
  {
    if s == [] then []
    else if IsSpace(s[0]) then Words(s[1..])
    else
      var k := TokenLen(s);
      [s[..k]] + Words(s[k..])
  }

  /** The token length of a string is not changed by what follows a whitespace character. */
  lemma {:induction false} TokenLenStopsAtSpace(a: string, rest: string)
    requires rest != [] && IsSpace(rest[0])
    ensures TokenLen(a + rest) == TokenLen(a)
    decreases |a|
  {
    if a == [] {
      assert a + rest == rest;
    } else if IsSpace(a[0]) {
      assert (a + rest)[0] == a[0];
    } else {
      assert (a + rest)[1..] == a[1..] + rest;
      TokenLenStopsAtSpace(a[1..], rest);
    }
  }

  /** Splitting on whitespace distributes over a whitespace separator:
      `(a + " " + b).split() == a.split() + b.split()`. */
  lemma {:induction false} WordsConcatSpace(a: string, c: char, b: string)
    requires IsSpace(c)
    ensures Words(a + [c] + b) == Words(a) + Words(b)
    decreases |a|
  {
    var s := a + [c] + b;
    if a == [] {
      assert s[1..] == b;
    } else if IsSpace(a[0]) {
      assert s[0] == a[0] && s[1..] == a[1..] + [c] + b;
      WordsConcatSpace(a[1..], c, b);
    } else {
      TokenLenStopsAtSpace(a, [c] + b);
      assert s == a + ([c] + b);
      var k := TokenLen(a);
      assert s[0] == a[0] && s[..k] == a[..k];
      assert s[k..] == a[k..] + [c] + b;
      assert Words(s) == [a[..k]] + Words(s[k..]);
      WordsConcatSpace(a[k..], c, b);
    }
  }

  /** Leading whitespace yields no words: `(w + s).split() == s.split()` for blank `w`. */
  lemma {:induction false} WordsSkipSpaces(w: string, s: string)
    requires forall i :: 0 <= i < |w| ==> IsSpace(w[i])
    ensures Words(w + s) == Words(s)
    decreases |w|
  {
    if w == [] {
      assert w + s == s;
    } else {
      assert (w + s)[1..] == w[1..] + s;
      WordsSkipSpaces(w[1..], s);
    }
  }

  /** A non-empty string without whitespace is a single word. */
  lemma WordsSingle(s: string)
    requires s != [] && NoSpace(s)
    ensures Words(s) == [s]
  {
    TokenLenAll(s);
    assert s[..|s|] == s;
    assert s[|s|..] == [];
  }

  lemma {:induction false} TokenLenAll(s: string)
    requires NoSpace(s)
    ensures TokenLen(s) == |s|
    decreases |s|
  {
    if s != [] {
      TokenLenAll(s[1..]);
    }
  }

  /** Python's `s.split(c)`: the fields between occurrences of `c`. There is
      always at least one field, at least two when `c` occurs, and no field
      contains `c`. */
  function SplitOn(s: string, c: char): (r: seq<string>)
    ensures |r| >= 1
    ensures c in s ==> |r| >= 2
    ensures forall i :: 0 <= i < |r| ==> c !in r[i]
    decreases |s|
  {
    if s == [] then [""]
    else
      var rest := SplitOn(s[1..], c);
      if s[0] == c then [""] + rest
      else [[s[0]] + rest[0]] + rest[1..]
  }

  /** Python's `c.join(parts)` for a single-character separator. */
  function JoinOn(parts: seq<string>, c: char): string
    decreases |parts|
  {
    if parts == [] then ""
    else if |parts| == 1 then parts[0]
    else parts[0] + [c] + JoinOn(parts[1..], c)
  }

  /** Joining the fields of a split gives back the original string. */
  lemma {:induction false} SplitJoin(s: string, c: char)
    ensures JoinOn(SplitOn(s, c), c) == s
    decreases |s|
  {
    if s != [] {
      var rest := SplitOn(s[1..], c);
      SplitJoin(s[1..], c);
      if s[0] == c {
        assert JoinOn([""] + rest, c) == "" + [c] + JoinOn(rest, c);
      } else if |rest| == 1 {
        assert JoinOn(rest, c) == rest[0];
      } else {
        var r := [[s[0]] + rest[0]] + rest[1..];
        assert r[1..] == rest[1..];
        assert JoinOn(rest, c) == rest[0] + [c] + JoinOn(rest[1..], c);
      }
    }
  }

  /** A string that does not contain the separator is a single field. */
  lemma {:induction false} SplitOnNoSep(a: string, c: char)
    requires c !in a
    ensures SplitOn(a, c) == [a]
    decreases |a|
  {
    if a != [] {
      SplitOnNoSep(a[1..], c);
      assert [a[0]] + a[1..] == a;
    }
  }

  /** The first field of `a + c + b` is `a` when `a` does not contain `c`;
      the remaining fields are those of `b`. */
  lemma {:induction false} SplitOnFirstField(a: string, c: char, b: string)
    requires c !in a
    ensures SplitOn(a + [c] + b, c) == [a] + SplitOn(b, c)
    decreases |a|
  {
    var s := a + [c] + b;
    if a == [] {
      assert s[1..] == b;
    } else {
      assert s[1..] == a[1..] + [c] + b;
      SplitOnFirstField(a[1..], c, b);
      assert [a[0]] + a[1..] == a;
    }
  }

  /** Splitting a join of separator-free fields gives back the fields. */
  lemma {:induction false} JoinSplit(parts: seq<string>, c: char)
    requires |parts| >= 1
    requires forall i :: 0 <= i < |parts| ==> c !in parts[i]
    ensures SplitOn(JoinOn(parts, c), c) == parts
    decreases |parts|
  {
    if |parts| == 1 {
      SplitOnNoSep(parts[0], c);
    } else {
      JoinSplit(parts[1..], c);
      SplitOnFirstField(parts[0], c, JoinOn(parts[1..], c));
      assert [parts[0]] + parts[1..] == parts;
    }
  }

  /** Python's `needle in text` for strings. */
  predicate Contains(text: string, needle: string) {
    exists i | 0 <= i <= |text| - |needle| :: OccursAt(text, needle, i)
  }

  predicate OccursAt(text: string, needle: string, i: int)
    requires 0 <= i <= |text| - |needle|
  {
    text[i..i + |needle|] == needle
  }

  function LowerChar(c: char): char {
    if 'A' <= c <= 'Z' then (c as int + 32) as char else c
  }

  /** `s.lower()` restricted to ASCII letters. */
  function Lower(s: string): (r: string)
    ensures |r| == |s|
    ensures forall i :: 0 <= i < |s| ==> r[i] == LowerChar(s[i])
  {
    seq(|s|, i requires 0 <= i < |s| => LowerChar(s[i]))
  }

  /** `s.replace(old, new)` for single characters. */
  function ReplaceChar(s: string, from: char, to: char): (r: string)
    ensures |r| == |s|
    ensures forall i :: 0 <= i < |s| ==> r[i] == (if s[i] == from then to else s[i])
  {
    seq(|s|, i requires 0 <= i < |s| => if s[i] == from then to else s[i])
  }

  /** Python's `str(v)` for a scalar JSON value; numbers go through the
      interpreter's own float rendering, given as `render`. */
  function PyStr(v: JsonValue, render: real -> string): string {
    match v
    case JStr(t) => t
    case JNum(n) => render(n)
    case JNull => "None"
  }

  /** Python's `float(v)` for a scalar JSON value; string parsing is the
      interpreter's own, given as `parseFloat`. */
  function PyFloat(v: JsonValue, parseFloat: string -> Parsed): Parsed {
    match v
    case JStr(t) => parseFloat(t)
    case JNum(n) => Number(n)
    case JNull => NotNumber("float() argument must be a string or a real number, not 'NoneType'")
  }

  function DigitChar(d: nat): char
    requires d < 10
  {
    ('0' as int + d) as char
  }

  function NatToString(n: nat): string
    decreases n
  {
    if n < 10 then [DigitChar(n)] else NatToString(n / 10) + [DigitChar(n % 10)]
  }

  /** Python's `str(n)` for an integer. */
  function IntToString(n: int): string {
    if n < 0 then "-" + NatToString(-n) else NatToString(n)
  }
}

=== FILE: extraction.dfy ===
/** Extraction stage: `LegalBrain.extract_text_blocks`, the keyword page
    filter that decides which text blocks are sent to the language model,
    and the JSON shape the model is asked to return. The PDF is given as
    page data: each page's full text and its `(x0, y0, x1, y1, text)` blocks. */
module ExtractionEngine {
  import opened Common

  /** A page is sent only if its lower-cased text contains one of these. */
  const Keywords: seq<string> := ["project site", "ndvi", "bps", "latitude"]

  datatype RawBlock = RawBlock(x0: real, y0: real, x1: real, y1: real, text: string)
  datatype Page = Page(text: string, blocks: seq<RawBlock>)

  /** One block as sent to the model: 1-based page "p", stripped text "t" and
      the bounding box "b" reordered as `[y0, x0, y1, x1]`. */
  datatype Block = Block(p: nat, t: string, b: seq<real>)

  /** One field of the model's reply: `{"value": ..., "raw_text_found": ...}`. */
  datatype Field = Field(value: JsonValue, rawTextFound: JsonValue)
  /** The three-field reply `{"gps": ..., "ndvi": ..., "margin": ...}`. */
  datatype ExtractedData = ExtractedData(gps: Field, ndvi: Field, margin: Field)

  /** The page filter: the lower-cased page text contains a keyword. A page
      shorter than the shortest keyword never qualifies. */
  predicate Qualifies(page: Page)
    ensures Qualifies(page) ==> |page.text| >= 3
  {
    exists k | 0 <= k < |Keywords| :: Contains(Lower(page.text), Keywords[k])
  }

  /** The filter ignores ASCII case: lower-casing the text first changes
      nothing, and a keyword in capitals qualifies the page. */
  lemma QualifiesIgnoresCase(text: string, blocks: seq<RawBlock>)
    ensures Qualifies(Page(Lower(text), blocks)) == Qualifies(Page(text, blocks))
    ensures Qualifies(Page("Mean NDVI", blocks))
  {
    assert Lower(Lower(text)) == Lower(text);
    var lowered := Lower("Mean NDVI");
    assert lowered == "mean ndvi";
    assert OccursAt(lowered, Keywords[1], 5);
  }

  /** A block is kept when its text is not blank. */
  predicate Kept(r: RawBlock) {
    Strip(r.text) != []
  }

  /** A raw block as sent: page numbers are 1-based, the box is reordered to
      `[y0, x0, y1, x1]`, and the text of a kept block is non-blank. */
  function Convert(pageIdx: nat, r: RawBlock): (b: Block)
    ensures b.p >= 1 && b.p - 1 == pageIdx
    ensures |b.b| == 4 && b.b[0] == r.y0 && b.b[1] == r.x0 && b.b[2] == r.y1 && b.b[3] == r.x1
    ensures Kept(r) <==> b.t != []
  {
    Block(pageIdx + 1, Strip(r.text), [r.y0, r.x0, r.y1, r.x1])
  }

  /** The text of a converted block is already stripped. */
  lemma ConvertStripped(pageIdx: nat, r: RawBlock)
    ensures Strip(Convert(pageIdx, r).t) == Convert(pageIdx, r).t
  {
    StripIdempotent(r.text);
  }

  /** The kept blocks among `raws`, converted, in input order. */
  function PageBlocks(pageIdx: nat, raws: seq<RawBlock>): (r: seq<Block>)
    ensures |r| <= |raws|
    decreases |raws|
  {
    if raws == [] then []
    else
      var last := raws[|raws| - 1];
      PageBlocks(pageIdx, raws[..|raws| - 1]) + (if Kept(last) then [Convert(pageIdx, last)] else [])
  }

  /** The contribution of the page at `pageIdx`. */
  function PageOutput(pageIdx: nat, page: Page): seq<Block> {
    if Qualifies(page) then PageBlocks(pageIdx, page.blocks) else []
  }

  /** The block list for a whole document, page after page. */
  function BlocksOf(pages: seq<Page>): seq<Block>
    decreases |pages|
  {
    if pages == [] then []
    else BlocksOf(pages[..|pages| - 1]) + PageOutput(|pages| - 1, pages[|pages| - 1])
  }

  /** `extract_text_blocks`: the page loop; the block loop of a page with a
      keyword is `AppendPageBlocks`. */
  method ExtractTextBlocks(pages: seq<Page>) returns (blocks: seq<Block>)
    ensures blocks == BlocksOf(pages)
  {
    blocks := [];
    var i := 0;
    while i < |pages|
      invariant 0 <= i <= |pages|
      invariant blocks == BlocksOf(pages[..i])
    {
      var page := pages[i];
      assert pages[..i + 1][..i] == pages[..i];
      assert BlocksOf(pages[..i + 1]) == BlocksOf(pages[..i]) + PageOutput(i, page);
      if Qualifies(page) {
        blocks := AppendPageBlocks(i, page.blocks, blocks);
      }
      i := i + 1;
    }
    assert pages[..i] == pages;
  }

  /** The block loop of page `pageIdx`: every non-blank block is appended,
      converted. */
  method AppendPageBlocks(pageIdx: nat, raws: seq<RawBlock>, before: seq<Block>) returns (blocks: seq<Block>)
    ensures blocks == before + PageBlocks(pageIdx, raws)
  {
    blocks := before;
    var j := 0;
    while j < |raws|
      invariant 0 <= j <= |raws|
      invariant blocks == before + PageBlocks(pageIdx, raws[..j])
    {
      var raw := raws[j];
      assert raws[..j + 1][..j] == raws[..j] && raws[..j + 1][j] == raw;
      ghost var done := PageBlocks(pageIdx, raws[..j]);
      assert PageBlocks(pageIdx, raws[..j + 1]) == done + (if Kept(raw) then [Convert(pageIdx, raw)] else []);
      if Strip(raw.text) != [] {
        blocks := blocks + [Block(pageIdx + 1, Strip(raw.text), [raw.y0, raw.x0, raw.y1, raw.x1])];
        assert blocks == before + (done + [Convert(pageIdx, raw)]);
      }
      j := j + 1;
    }
    assert raws[..j] == raws;
  }

  /** `run`: the filtered blocks go to the model, whose reply is either the
      three-field object or an exception (`None`). */
  method Run(pages: seq<Page>, gemini: seq<Block> -> Option<ExtractedData>) returns (data: Option<ExtractedData>)
    ensures data == gemini(BlocksOf(pages))
  {
    var blocks := ExtractTextBlocks(pages);
    data := gemini(blocks);
  }

  /** Block `b` is the conversion of the kept block `j` of `raws`. */
  predicate ConvertedFrom(pageIdx: nat, raws: seq<RawBlock>, j: int, b: Block) {
    0 <= j < |raws| && Kept(raws[j]) && b == Convert(pageIdx, raws[j])
  }

  /** Every block of a page's output is a kept block, converted. */
  lemma {:induction false} PageBlocksSound(pageIdx: nat, raws: seq<RawBlock>, b: Block)
    requires b in PageBlocks(pageIdx, raws)
    ensures exists j :: ConvertedFrom(pageIdx, raws, j, b)
    decreases |raws|
  {
    var n := |raws| - 1;
    var init, last := raws[..n], raws[n];
    assert PageBlocks(pageIdx, raws) == PageBlocks(pageIdx, init) + (if Kept(last) then [Convert(pageIdx, last)] else []);
    if b in PageBlocks(pageIdx, init) {
      PageBlocksSound(pageIdx, init, b);
      var j :| ConvertedFrom(pageIdx, init, j, b);
      assert raws[j] == init[j];
      assert ConvertedFrom(pageIdx, raws, j, b);
    } else {
      assert ConvertedFrom(pageIdx, raws, n, b);
    }
  }

  /** Every kept block of a page is in the page's output, converted. */
  lemma {:induction false} PageBlocksComplete(pageIdx: nat, raws: seq<RawBlock>, j: nat)
    requires j < |raws| && Kept(raws[j])
    ensures Convert(pageIdx, raws[j]) in PageBlocks(pageIdx, raws)
    decreases |raws|
  {
    var n := |raws| - 1;
    var init, last := raws[..n], raws[n];
    var tail := if Kept(last) then [Convert(pageIdx, last)] else [];
    assert PageBlocks(pageIdx, raws) == PageBlocks(pageIdx, init) + tail;
    if j < n {
      assert init[j] == raws[j];
      PageBlocksComplete(pageIdx, init, j);
    } else {
      assert tail == [Convert(pageIdx, raws[j])];
    }
  }

  /** Membership in a page's output: exactly the kept blocks, converted. */
  lemma PageBlocksMembership(pageIdx: nat, raws: seq<RawBlock>, b: Block)
    ensures b in PageBlocks(pageIdx, raws) <==> exists j :: ConvertedFrom(pageIdx, raws, j, b)
  {
    if b in PageBlocks(pageIdx, raws) {
      PageBlocksSound(pageIdx, raws, b);
    }
    if j :| ConvertedFrom(pageIdx, raws, j, b) {
      PageBlocksComplete(pageIdx, raws, j);
    }
  }

  /** Block `b` is the conversion of kept block `j` of page `i`, a page with a keyword. */
  predicate ComesFrom(pages: seq<Page>, i: int, j: int, b: Block) {
    && 0 <= i < |pages| && Qualifies(pages[i])
    && 0 <= j < |pages[i].blocks| && Kept(pages[i].blocks[j])
    && b == Convert(i, pages[i].blocks[j])
  }

  /** Every block in the output comes from a kept block of a page with a keyword. */
  lemma {:induction false} BlocksOfSound(pages: seq<Page>, b: Block)
    requires b in BlocksOf(pages)
    ensures exists i, j :: ComesFrom(pages, i, j, b)
    decreases |pages|
  {
    var n := |pages| - 1;
    var init := pages[..n];
    assert BlocksOf(pages) == BlocksOf(init) + PageOutput(n, pages[n]);
    if b in BlocksOf(init) {
      BlocksOfSound(init, b);
      var i, j :| ComesFrom(init, i, j, b);
      assert pages[i] == init[i];
      assert ComesFrom(pages, i, j, b);
    } else {
      assert Qualifies(pages[n]) && b in PageBlocks(n, pages[n].blocks);
      PageBlocksSound(n, pages[n].blocks, b);
      var j :| ConvertedFrom(n, pages[n].blocks, j, b);
      assert ComesFrom(pages, n, j, b);
    }
  }

  /** Every kept block of a page with a keyword is in the output. */
  lemma {:induction false} BlocksOfComplete(pages: seq<Page>, i: nat, j: nat)
    requires i < |pages| && Qualifies(pages[i]) && j < |pages[i].blocks| && Kept(pages[i].blocks[j])
    ensures Convert(i, pages[i].blocks[j]) in BlocksOf(pages)
    decreases |pages|
  {
    var n := |pages| - 1;
    var init := pages[..n];
    var b := Convert(i, pages[i].blocks[j]);
    assert BlocksOf(pages) == BlocksOf(init) + PageOutput(n, pages[n]);
    if i < n {
      assert init[i] == pages[i];
      BlocksOfComplete(init, i, j);
      assert b in BlocksOf(init);
    } else {
      assert PageOutput(n, pages[n]) == PageBlocks(i, pages[i].blocks);
      PageBlocksComplete(i, pages[i].blocks, j);
      assert b in PageOutput(n, pages[n]);
    }
  }

  /** Soundness and completeness of the filter: a block is in the output
      exactly when it comes from a kept block of a page with a keyword. Blocks
      without a keyword of their own are kept too. */
  lemma BlocksOfMembership(pages: seq<Page>, b: Block)
    ensures b in BlocksOf(pages) <==>
      exists i, j :: ComesFrom(pages, i, j, b)
  {
    if b in BlocksOf(pages) {
      BlocksOfSound(pages, b);
    }
    if i, j :| ComesFrom(pages, i, j, b) {
      BlocksOfComplete(pages, i, j);
    }
  }

  /** Block `b` names a page of the document that holds a keyword, and carries
      non-blank stripped text and a four-number box. */
  predicate WellFormedBlock(pages: seq<Page>, b: Block) {
    && 1 <= b.p <= |pages| && Qualifies(pages[b.p - 1])
    && b.t != [] && Strip(b.t) == b.t && |b.b| == 4
  }

  /** Each block of the output is well formed. */
  lemma BlockShape(pages: seq<Page>, b: Block)
    requires b in BlocksOf(pages)
    ensures WellFormedBlock(pages, b)
  {
    BlocksOfSound(pages, b);
    var i, j :| ComesFrom(pages, i, j, b);
    ConvertStripped(i, pages[i].blocks[j]);
  }

  /** Every block sent to the model is well formed. */
  lemma BlocksOfShape(pages: seq<Page>)
    ensures forall k :: 0 <= k < |BlocksOf(pages)| ==> WellFormedBlock(pages, BlocksOf(pages)[k])
  {
    var out := BlocksOf(pages);
    forall k | 0 <= k < |out|
      ensures WellFormedBlock(pages, out[k])
    {
      BlockShape(pages, out[k]);
    }
  }

  /** Page numbers of the output never decrease: pages are emitted in
      ascending order. */
  lemma {:induction false} BlocksOfOrdered(pages: seq<Page>)
    ensures forall k, l :: 0 <= k <= l < |BlocksOf(pages)| ==> BlocksOf(pages)[k].p <= BlocksOf(pages)[l].p
    decreases |pages|
  {
    if pages != [] {
      var n := |pages| - 1;
      var init := pages[..n];
      BlocksOfOrdered(init);
      BlocksOfShape(init);
      var head := BlocksOf(init);
      var tail := PageOutput(n, pages[n]);
      assert forall b :: b in tail ==> b.p == n + 1 by {
        forall b | b in tail ensures b.p == n + 1 {
          PageBlocksSound(n, pages[n].blocks, b);
        }
      }
      assert BlocksOf(pages) == head + tail;
      forall k, l | 0 <= k <= l < |head + tail|
        ensures (head + tail)[k].p <= (head + tail)[l].p
      {
        if l >= |head| {
          assert (head + tail)[l] in tail;
          if k >= |head| {
            assert (head + tail)[k] in tail;
          }
        }
      }
    }
  }

  /** Within a page the output keeps the input order of the blocks: the
      page's output is the kept blocks in sequence. */
  lemma {:induction false} PageBlocksInOrder(pageIdx: nat, raws: seq<RawBlock>, j: nat)
    requires j <= |raws|
    ensures PageBlocks(pageIdx, raws[..j]) <= PageBlocks(pageIdx, raws)
    decreases |raws| - j
  {
    if j < |raws| {
      PageBlocksInOrder(pageIdx, raws, j + 1);
      assert raws[..j + 1][..j] == raws[..j];
    } else {
      assert raws[..j] == raws;
    }
  }

  /** A page without any of the keywords contributes nothing, whatever its blocks. */
  lemma NonQualifyingPageSkipped(pages: seq<Page>, extra: Page)
    requires !Qualifies(extra)
    ensures BlocksOf(pages + [extra]) == BlocksOf(pages)
  {
    assert (pages + [extra])[..|pages|] == pages;
  }
}

=== FILE: trust_ledger.dfy ===
/** Settlement stage: the four-branch decision table that turns the
    satellite verification outcome into a compliance status and a margin
    adjustment, the derived margin, impact text and revenue figure, and the
    sealed report's seal input and path. */
module TrustLedger {
  import opened Common

  /** The compliance statuses, in the priority order of the decision table. */
  datatype Status = Declassified | DoubleBreach | Breach | Compliant

  /** The status text stored in the settlement result and hashed into the seal. */
  function StatusText(s: Status): string {
    match s
    case Declassified => "DECLASSIFIED"
    case DoubleBreach => "Double BREACH"
    case Breach => "BREACH"
    case Compliant => "COMPLIANT"
  }

  /** Share of degraded pixels above which the penalty is doubled (strict). */
  const DoubleBreachThreshold: real := 0.10
  /** Notional portfolio that the revenue impact is computed against. */
  const PortfolioValue: real := 100000000.0
  const BpsPerUnit: real := 10000.0

  /** The ledger's state after construction; nothing changes it afterwards. */
  datatype Ledger = Ledger(baseMargin: real, reportsDir: string)

  /** `TrustLedger(base_margin_bps=150)`: creating the reports directory is I/O and not modelled. */
  function NewLedger(baseMarginBps: real := 150.0): (l: Ledger)
    ensures l.baseMargin == baseMarginBps && l.reportsDir == "reports"
  {
    Ledger(baseMarginBps, "reports")
  }

  /** The decision table, first matching row wins. Each status is characterised
      by the full condition it needs, including the rows before it that must fail. */
  function Decide(target: real, actual: Option<real>, breachRatio: real): (s: Status)
    ensures s == Declassified <==> actual.None?
    ensures s == DoubleBreach <==> actual.Some? && breachRatio > DoubleBreachThreshold
    ensures s == Breach <==> actual.Some? && breachRatio <= DoubleBreachThreshold && actual.value < target
    ensures s == Compliant <==> actual.Some? && breachRatio <= DoubleBreachThreshold && actual.value >= target
  {
    if actual.None? then Declassified
    else if breachRatio > DoubleBreachThreshold then DoubleBreach
    else if actual.value < target then Breach
    else Compliant
  }

  /** The signed margin adjustment of each row of the table. */
  function Adjustment(s: Status, ratchetBps: real): (r: real)
    // The size is the ratchet, doubled only for a double breach.
    ensures Abs(r) == (if s == DoubleBreach then 2.0 else 1.0) * Abs(ratchetBps)
    // With a positive ratchet only a compliant loan gets a lower margin.
    ensures ratchetBps > 0.0 ==> (r < 0.0 <==> s == Compliant)
  {
    match s
    case Declassified => ratchetBps
    case DoubleBreach => ratchetBps * 2.0
    case Breach => ratchetBps
    case Compliant => -ratchetBps
  }

  /** `f"+{adjustment} bps"` for a positive adjustment, `f"{adjustment} bps"` otherwise. */
  function ImpactText(adjustment: real, render: real -> string): (r: string)
    ensures |r| >= 4 && r[|r| - 4..] == " bps"
    ensures adjustment > 0.0 ==> r[0] == '+'
  {
    (if adjustment > 0.0 then "+" else "") + render(adjustment) + " bps"
  }

  /** Annual revenue change on the fixed notional: `portfolio * (|adj| / 10000)`. */
  function RevenueImpact(adjustment: real): (r: real)
    ensures r >= 0.0
    ensures r == 10000.0 * Abs(adjustment)
  {
    PortfolioValue * (Abs(adjustment) / BpsPerUnit)
  }

  /** The seal input `doc_id|status|new_margin|timestamp`. */
  function SealInput(docId: string, statusText: string, marginText: string, timestamp: string): (r: string)
    ensures |r| == |docId| + |statusText| + |marginText| + |timestamp| + 3
    ensures docId <= r && r[|docId|] == '|'
  {
    docId + "|" + statusText + "|" + marginText + "|" + timestamp
  }

  /** `os.path.join(reports_dir, f"audit_report_{doc_id}.pdf")`; the file name is relative. */
  function ReportPath(reportsDir: string, docId: string): (r: string)
    ensures reportsDir + "/audit_report_" <= r
    ensures |r| == |reportsDir| + |docId| + 18
    ensures r[|reportsDir| + 14..|r| - 4] == docId && r[|r| - 4..] == ".pdf"
  {
    reportsDir + "/" + "audit_report_" + docId + ".pdf"
  }

  /** What `generate_pdf_report` returns: the report path and the seal. The
      report body itself is layout and is not modelled. */
  datatype Report = Report(path: string, seal: string)

  function GeneratePdfReport(ledger: Ledger, docId: string, statusText: string, marginText: string,
                             now: string, sha256Hex: string -> string): (r: Report)
    ensures r.path == ledger.reportsDir + "/audit_report_" + docId + ".pdf"
    ensures r.seal == sha256Hex(docId + "|" + statusText + "|" + marginText + "|" + now)
  {
    Report(ReportPath(ledger.reportsDir, docId), sha256Hex(SealInput(docId, statusText, marginText, now)))
  }

  /** The dictionary `calculate_final_verdict` returns, with the numeric
      adjustment and new margin kept beside their display texts. */
  datatype Settlement = Settlement(
    loanRef: string,
    status: Status,
    actualNdvi: string,
    breachPercent: real,
    adjustment: real,
    marginAdjustment: string,
    newMargin: real,
    finalMargin: string,
    revenueImpact: real,
    reportPath: string,
    digitalSeal: string)

  /** `calculate_final_verdict`: `render` is Python's number rendering,
      `sha256Hex` the digest and `now` the ISO timestamp of the report. */
  function CalculateFinalVerdict(ledger: Ledger, docId: string, target: real, actual: Option<real>,
                                 breachRatio: real, ratchetBps: real,
                                 render: real -> string, sha256Hex: string -> string, now: string): (r: Settlement)
    ensures actual.None? ==> r.status == Declassified && r.adjustment == ratchetBps && r.actualNdvi == "UNVERIFIED"
    ensures actual.Some? ==> r.actualNdvi == render(actual.value)
    ensures actual.Some? && breachRatio > 0.10 ==> r.status == DoubleBreach && r.adjustment == 2.0 * ratchetBps
    ensures actual.Some? && breachRatio <= 0.10 && actual.value < target ==> r.status == Breach && r.adjustment == ratchetBps
    ensures actual.Some? && breachRatio <= 0.10 && actual.value >= target ==> r.status == Compliant && r.adjustment == -ratchetBps
    ensures r.newMargin == ledger.baseMargin + r.adjustment
    ensures r.revenueImpact == 10000.0 * Abs(r.adjustment)
    ensures r.digitalSeal == sha256Hex(SealInput(docId, StatusText(r.status), render(r.newMargin), now))
    ensures r.reportPath == ReportPath(ledger.reportsDir, docId)
    ensures r.loanRef == docId
    ensures r.marginAdjustment == ImpactText(r.adjustment, render)
    ensures r.finalMargin == render(r.newMargin) + " bps"
    ensures r.breachPercent == breachRatio * 100.0
  {
    var status := Decide(target, actual, breachRatio);
    var adjustment := Adjustment(status, ratchetBps);
    var displayActual := if actual.None? then "UNVERIFIED" else render(actual.value);
    var newMargin := ledger.baseMargin + adjustment;
    var impact := ImpactText(adjustment, render);
    var report := GeneratePdfReport(ledger, docId, StatusText(status), render(newMargin), now, sha256Hex);
    Settlement(docId, status, displayActual, breachRatio * 100.0, adjustment, impact,
               newMargin, render(newMargin) + " bps", RevenueImpact(adjustment), report.path, report.seal)
  }

  /** A degraded site is a double breach even when its average index meets the target. */
  lemma DoubleBreachDominates(target: real, actual: real, breachRatio: real)
    requires breachRatio > 0.10 && actual >= target
    ensures Decide(target, Some(actual), breachRatio) == DoubleBreach
  {
  }

  /** A breach ratio of exactly 0.10 does not escalate. */
  lemma ThresholdIsStrict(target: real, actual: real)
    ensures Decide(target, Some(actual), 0.10) != DoubleBreach
    ensures Decide(target, Some(actual), 0.10) == if actual < target then Breach else Compliant
  {
  }

  /** The impact text starts with "+" exactly when the adjustment is positive,
      given that the number rendering never writes a leading "+" itself (as
      Python's never does). */
  lemma ImpactSign(adjustment: real, render: real -> string)
    requires render(adjustment) == [] || render(adjustment)[0] != '+'
    ensures var t := ImpactText(adjustment, render);
      |t| > 0 && t[0] == '+' <==> adjustment > 0.0
  {
    if adjustment <= 0.0 {
      var shown := render(adjustment);
      assert ImpactText(adjustment, render) == shown + " bps";
      assert (shown + " bps")[0] == if shown == [] then ' ' else shown[0];
    }
  }

  /** Penalty and reward of the same size have the same revenue impact, and
      the figure grows with the size of the adjustment. */
  lemma RevenueSymmetric(a: real, b: real)
    ensures RevenueImpact(a) == RevenueImpact(-a)
    ensures Abs(a) <= Abs(b) ==> RevenueImpact(a) <= RevenueImpact(b)
  {
  }

  /** The seal input splits back into its four fields when none of them
      contains the separator, so the seal binds each field separately. */
  lemma {:induction false} SealFields(docId: string, statusText: string, marginText: string, timestamp: string)
    requires '|' !in docId && '|' !in statusText && '|' !in marginText && '|' !in timestamp
    ensures SplitOn(SealInput(docId, statusText, marginText, timestamp), '|') == [docId, statusText, marginText, timestamp]
  {
    var parts := [docId, statusText, marginText, timestamp];
    assert JoinOn(parts[3..], '|') == timestamp;
    assert JoinOn(parts[2..], '|') == marginText + "|" + timestamp by {
      assert parts[2..][1..] == parts[3..];
    }
    assert JoinOn(parts[1..], '|') == statusText + "|" + (marginText + "|" + timestamp) by {
      assert parts[1..][1..] == parts[2..];
    }
    assert JoinOn(parts, '|') == docId + "|" + (statusText + "|" + (marginText + "|" + timestamp));
    assert SealInput(docId, statusText, marginText, timestamp) == JoinOn(parts, '|');
    JoinSplit(parts, '|');
  }

  /** Two settlements with the same seal input agree on document, status,
      margin text and timestamp. */
  lemma SealInputInjective(d1: string, s1: string, m1: string, t1: string,
                           d2: string, s2: string, m2: string, t2: string)
    requires '|' !in d1 && '|' !in s1 && '|' !in m1 && '|' !in t1
    requires '|' !in d2 && '|' !in s2 && '|' !in m2 && '|' !in t2
    requires SealInput(d1, s1, m1, t1) == SealInput(d2, s2, m2, t2)
    ensures d1 == d2 && s1 == s2 && m1 == m2 && t1 == t2
  {
    SealFields(d1, s1, m1, t1);
    SealFields(d2, s2, m2, t2);
  }

  /** No status text contains the seal separator, and the four texts differ. */
  lemma StatusTextDistinct(a: Status, b: Status)
    ensures '|' !in StatusText(a)
    ensures StatusText(a) == StatusText(b) ==> a == b
  {
  }

  /** The default ledger writes `reports/audit_report_<doc_id>.pdf`. */
  lemma DefaultReportPath(docId: string)
    ensures ReportPath(NewLedger().reportsDir, docId) == "reports/audit_report_" + docId + ".pdf"
    ensures NewLedger().baseMargin == 150.0
  {
  }

  /** Settlement on a 0.75 target, a 5 bps ratchet and the 150 bps base margin. */
  lemma SettlementExamples(render: real -> string, sha256Hex: string -> string, now: string, docId: string)
    ensures var r := CalculateFinalVerdict(NewLedger(), docId, 0.75, None, 0.0, 5.0, render, sha256Hex, now);
      r.status == Declassified && r.adjustment == 5.0 && r.newMargin == 155.0
    ensures var r := CalculateFinalVerdict(NewLedger(), docId, 0.75, Some(0.50), 0.15, 5.0, render, sha256Hex, now);
      r.status == DoubleBreach && r.adjustment == 10.0 && r.newMargin == 160.0
    ensures var r := CalculateFinalVerdict(NewLedger(), docId, 0.75, Some(0.70), 0.05, 5.0, render, sha256Hex, now);
      r.status == Breach && r.adjustment == 5.0 && r.newMargin == 155.0
    ensures var r := CalculateFinalVerdict(NewLedger(), docId, 0.75, Some(0.82), 0.0, 5.0, render, sha256Hex, now);
      r.status == Compliant && r.adjustment == -5.0 && r.newMargin == 145.0 && r.revenueImpact == 50000.0
  {
  }
}

=== FILE: verifier.dfy ===
/** Verification stage: the guard, error conversion and result shaping of
    `PlanetaryVerifier.verify_zonal_truth`. Earth Engine is an oracle that
    answers the audit query with an image count and, for a non-empty
    collection, the zonal statistics of the median composite. */
module PlanetaryVerifier {
  import opened Common

  /** The coordinate sentinel the extraction backend uses for a missing value. */
  const NotProvided: string := "NOT_PROVIDED"
  /** The image collection the verifier is constructed with. */
  const CollectionId: string := "COPERNICUS/S2_SR_HARMONIZED"
  const FailurePrefix: string := "Verification Failure: "
  const DeclassifiedReason: string := "Borrower failed to provide Project Site coordinates."
  const NoImageryReason: string := "No clear satellite imagery found in the 30-day window."
  const BreachVerdict: string := "BREACH: ADJUST MARGIN UP"
  const CompliantVerdict: string := "COMPLIANT: APPLY DISCOUNT"

  /** Everything the Earth Engine calls are parameterised by: the point, the
      buffer that becomes the square region, the date window, the cloud filter,
      the degradation threshold and the reduction scale. */
  datatype Query = Query(
    collectionId: string,
    lat: real,
    lon: real,
    bufferMeters: real,
    startDate: string,
    endDate: string,
    maxCloudPercent: real,
    degradationThreshold: real,
    scaleMeters: real)

  /** The query the verifier issues for a parsed point. */
  function AuditQuery(lat: real, lon: real): (q: Query)
    ensures q.lat == lat && q.lon == lon && q.collectionId == CollectionId
  {
    Query(CollectionId, lat, lon, 500.0, "2025-09-01", "2026-01-01", 20.0, 0.2, 10.0)
  }

  /** The statistics of the median composite: the zonal mean index, the mean
      of the below-threshold mask, and the two thumbnail URLs; or the message
      of an exception raised while computing them. */
  datatype Composite =
    | CompositeRaised(message: string)
    | Composite(actualScore: real, breachRatio: real, mapThumbUrl: string, maskThumbUrl: string)

  /** The backend's answer: an exception raised before the collection size is
      known, or the size and the composite's statistics. The size is read
      twice by the source and is taken to be the same both times. */
  datatype EeResponse =
    | QueryRaised(message: string)
    | Collection(imageCount: nat, composite: Composite)

  /** The dictionary `verify_zonal_truth` returns. `Declassified` and
      `NoImagery` carry their text under "reason", `Failure` under "message". */
  datatype VerifyResult =
    | Declassified(reason: string)
    | NoImagery(reason: string)
    | Failure(message: string)
    | Success(actualNdvi: real, targetNdvi: real, breachPercentage: real, isBreach: bool,
              verdict: string, mapThumbUrl: string, maskThumbUrl: string)
  {
    /** The "status" entry of the dictionary. */
    function Status(): string {
      match this
      case Declassified(_) => "DECLASSIFIED"
      case NoImagery(_) => "ERROR"
      case Failure(_) => "ERROR"
      case Success(_, _, _, _, _, _, _) => "SUCCESS"
    }
  }

  /** Python's `float(str(x).strip())`. */
  function ParseCoordinate(x: string, parseFloat: string -> Parsed): (r: Parsed)
    // A coordinate that is already stripped (as the GPS split returns it),
    // in particular one without whitespace, is parsed exactly as written.
    ensures Strip(x) == x ==> r == parseFloat(x)
    ensures NoSpace(x) ==> r == parseFloat(x)
  {
    StripNoSpaceIf(x);
    parseFloat(Strip(x))
  }

  /** Whitespace before or after a coordinate does not change how it is parsed. */
  lemma ParseCoordinateIgnoresPadding(w0: string, x: string, w1: string, parseFloat: string -> Parsed)
    requires forall i :: 0 <= i < |w0| ==> IsSpace(w0[i])
    requires forall i :: 0 <= i < |w1| ==> IsSpace(w1[i])
    ensures ParseCoordinate(w0 + x + w1, parseFloat) == ParseCoordinate(x, parseFloat)
  {
    StripPadded(w0, x, w1);
  }

  /** `verify_zonal_truth(lat, lon, target_ndvi)`. */
  function VerifyZonalTruth(lat: string, lon: string, targetNdvi: real,
                            parseFloat: string -> Parsed, earthEngine: Query -> EeResponse): (r: VerifyResult)
    // The sentinel guard, and only it, declassifies.
    ensures r.Declassified? <==> lat == NotProvided || lon == NotProvided
    // Every caught exception is reported under "message" with the fixed prefix.
    ensures r.Failure? ==> |r.message| >= |FailurePrefix| && r.message[..|FailurePrefix|] == FailurePrefix
    // An unparsable coordinate is a failure.
    ensures lat != NotProvided && lon != NotProvided
            && (ParseCoordinate(lat, parseFloat).NotNumber? || ParseCoordinate(lon, parseFloat).NotNumber?)
            ==> r.Failure?
    // An empty collection is the no-imagery error, and only it.
    ensures r.NoImagery? <==>
      && lat != NotProvided && lon != NotProvided
      && ParseCoordinate(lat, parseFloat).Number? && ParseCoordinate(lon, parseFloat).Number?
      && var resp := earthEngine(AuditQuery(ParseCoordinate(lat, parseFloat).value, ParseCoordinate(lon, parseFloat).value));
         resp.Collection? && resp.imageCount == 0
    // Success only after a non-empty collection, with the verdict tied to the strict comparison.
    ensures r.Success? ==>
      && lat != NotProvided && lon != NotProvided
      && ParseCoordinate(lat, parseFloat).Number? && ParseCoordinate(lon, parseFloat).Number?
      && var resp := earthEngine(AuditQuery(ParseCoordinate(lat, parseFloat).value, ParseCoordinate(lon, parseFloat).value));
         && resp.Collection? && resp.imageCount > 0 && resp.composite.Composite?
         && r.actualNdvi == resp.composite.actualScore
         && r.breachPercentage == resp.composite.breachRatio * 100.0
         && r.mapThumbUrl == resp.composite.mapThumbUrl && r.maskThumbUrl == resp.composite.maskThumbUrl
    // A parsed point with a non-empty collection and a computed composite succeeds.
    ensures (&& lat != NotProvided && lon != NotProvided
             && ParseCoordinate(lat, parseFloat).Number? && ParseCoordinate(lon, parseFloat).Number?
             && (var resp := earthEngine(AuditQuery(ParseCoordinate(lat, parseFloat).value, ParseCoordinate(lon, parseFloat).value));
                 resp.Collection? && resp.imageCount > 0 && resp.composite.Composite?))
            ==> r.Success?
    ensures r.Success? ==> r.targetNdvi == targetNdvi
    ensures r.Success? ==> (r.isBreach <==> r.actualNdvi < targetNdvi)
    ensures r.Success? ==> (r.verdict == BreachVerdict <==> r.isBreach)
    ensures r.Success? ==> (r.verdict == CompliantVerdict <==> !r.isBreach)
  {
    if lat == NotProvided || lon == NotProvided then
      Declassified(DeclassifiedReason)
    else
      match ParseCoordinate(lat, parseFloat)
      case NotNumber(m) => Failure(FailurePrefix + m)
      case Number(latF) =>
        match ParseCoordinate(lon, parseFloat)
        case NotNumber(m) => Failure(FailurePrefix + m)
        case Number(lonF) =>
          match earthEngine(AuditQuery(latF, lonF))
          case QueryRaised(m) => Failure(FailurePrefix + m)
          case Collection(count, composite) =>
            if count == 0 then
              NoImagery(NoImageryReason)
            else
              match composite
              case CompositeRaised(m) => Failure(FailurePrefix + m)
              case Composite(score, ratio, mapUrl, maskUrl) =>
                var isBreach := score < targetNdvi;
                Success(score, targetNdvi, ratio * 100.0, isBreach,
                        if isBreach then BreachVerdict else CompliantVerdict, mapUrl, maskUrl)
  }

  /** The sentinel guard answers before any parsing or backend call: the
      result is the same whatever the parser and the backend would do. */
  lemma GuardNeedsNoBackend(lat: string, lon: string, targetNdvi: real,
                            parse1: string -> Parsed, ee1: Query -> EeResponse,
                            parse2: string -> Parsed, ee2: Query -> EeResponse)
    requires lat == NotProvided || lon == NotProvided
    ensures VerifyZonalTruth(lat, lon, targetNdvi, parse1, ee1) == VerifyZonalTruth(lat, lon, targetNdvi, parse2, ee2)
    ensures VerifyZonalTruth(lat, lon, targetNdvi, parse1, ee1).Status() == "DECLASSIFIED"
  {
  }

  /** The status field classifies the result: "SUCCESS" exactly for a
      success, "ERROR" exactly for the two error shapes. */
  lemma StatusClassifies(r: VerifyResult)
    ensures r.Status() == "SUCCESS" <==> r.Success?
    ensures r.Status() == "ERROR" <==> r.NoImagery? || r.Failure?
    ensures r.Status() == "DECLASSIFIED" <==> r.Declassified?
  {
  }

  /** The audit query uses the fixed constants: a 500 m buffer, the
      September to December 2025 window, under 20% cloud, a 0.2 degradation
      threshold and a 10 m scale. */
  lemma AuditQueryConstants(lat: real, lon: real)
    ensures var q := AuditQuery(lat, lon);
      && q.bufferMeters == 500.0 && q.startDate == "2025-09-01" && q.endDate == "2026-01-01"
      && q.maxCloudPercent == 20.0 && q.degradationThreshold == 0.2 && q.scaleMeters == 10.0
  {
  }
}
